=== FILE: README.md ===
# ewrc-scraper: the text cleanups and the leg pagination, in Dafny

The ewrc-scraper reads the season listings, result tables and entry lists of
ewrc-results.com and turns them into records. This project models the parts of
it that are pure logic. BeautifulSoup and the HTTP session become inputs: the
optional cells and child lists a row hands over, and one list of rows per page.
The scraper's operations are then modelled as functions over strings and
sequences.

- **Season listing** (module `Events`).
  - `parseEvent` reads the title link, its `href` and the detail text.
  - The condition tags are the detail text after the first bullet, with `km`
    removed, only letters and `-` kept, then split on `-`.
  - `getSeason` numbers the events of a page 1, 2, … in document order.
  - Every lookup that fails raises the exception Python would raise:
    AttributeError on a missing element, KeyError on a missing `href`,
    IndexError when the detail text has no bullet.
- **Result rows** (module `Results`, cleanups in `Cleanup`).
  - `parseResult` collapses the driver and codriver names and drops `#` from
    the entry number.
  - It removes `.` from the finish and strips it.
  - The car is the first truthy child of its cell; the time is the first
    non-blank token.
  - Any failure turns the row into `None`, and `generateResultCSV` drops the
    `None`s.
- **Entry lists** (module `EntryList`).
  - `parseEntry` cleans one row.
  - `getEventEntryList` derives `/entries/<third segment of the event URL>`.
  - It then fetches legs 1, 2, … until a leg has no rows, numbering each
    leg's rows from 1.
  - `parseEntry` has no `try`, so one bad row aborts the whole loop.
- **Python semantics** (modules `PyStr`, `Seqs`, `PyResult`).
  - `str.split`, `join`, `replace`, `strip`, `isspace` and `isalpha`.
  - `str(n)`, negative list indexing, list comprehensions, and `extend` in a
    loop.
- **The three copies** (module `Variants`). The repository carries three copies
  of the event and result code, and one parameterised model covers them:
  - core/Helper.py splits on `•` and records `entry_number`;
  - Helper.py splits on the mis-decoded bullet `â€¢` and has no `entry_number`;
  - index.py splits on `•` and has no `entry_number`.
- **Worked cases** (module `WorkedCases`). The condition cleanup is worked
  through on the usual shape of a detail text,
  `<lead> • <distance> km - <word> - <word>`.

Three behaviours of the code are easy to misread, and the model keeps them as
written:

- The condition cleanup strips no words. A word such as "cancelled" stays a tag:
  `WorkedCases.ConditionsExample` shows ` • 320.5 km - gravel - cancelled`
  giving `["", "gravel", "cancelled"]`.
- The time stays the first non-blank token, as a string. Nothing converts it
  to seconds.
- `parseEntry` has no `try`, so the first bad row raises out of
  `getEventEntryList`. The `None` filter at core/Helper.py:195 therefore never
  removes anything (`Seqs.KeepSomeAllPresent`).

## Model

| member | source | states |
|---|---|---|
| Events.ParseEvent | core/Helper.py:52-56 | the event parses exactly when there is a title link with an `href` and the detail text holds a bullet. Otherwise it fails with AttributeError, KeyError or IndexError, in the order `parseEvent` reads the pieces. The round is the index plus one; the name, URL and conditions come from the link and the detail text. The copies at Helper.py:52-56 and index.py:17-22 are the same parse with their own separator |
| Events.GetSeason | core/Helper.py:74-75 | the season parses exactly when every block does. The i-th block becomes round i+1 of the same season, so the rounds are 1..n in page order. On failure, the error is that of the first failing block, and every block before it is well formed. The same numbering is at Helper.py:75 and index.py:35 |
| Events.MojibakeSeparatorFails | Helper.py:55 | a detail text with a real bullet and no `â` parses identically in core/Helper.py and index.py, but raises IndexError in Helper.py |
| Cleanup.ConditionText | core/Helper.py:55 | the filtered detail segment holds only letters and `-` |
| Cleanup.Conditions | core/Helper.py:55 | the conditions fail with IndexError exactly when the separator does not occur. Otherwise there is at least one tag, and every tag consists of letters only. The separator is a parameter: `•` here and at index.py:21, the mis-decoded bullet at Helper.py:55 |
| Cleanup.ConditionsRejoin | core/Helper.py:55 | joining the tags with `-` gives back the filtered text, there is one more tag than there are `-`, and a leading `-` makes the first tag empty |
| Cleanup.ConditionSegment | core/Helper.py:55 | the text the tags come from lies between the first separator and the next one, or the end of the text |
| WorkedCases.ConditionsOfDetail | core/Helper.py:55 | a detail text `<lead> • <distance> km - <w1> - <w2>` with letter-only words, and with no `k` in the words or the distance, gives the tags `""`, `w1`, `w2` unchanged; no word is removed |
| WorkedCases.ConditionsExample | core/Helper.py:55 | ` • 320.5 km - gravel - cancelled` gives `["", "gravel", "cancelled"]` |
| WorkedCases.MojibakeFails | Helper.py:55 | that same kind of text split on the mis-decoded bullet raises IndexError |
| WorkedCases.SegmentDropKm | core/Helper.py:55 | removing `km` takes out only the one `km` and leaves the distance digits for the letter filter |
| Cleanup.Tokens | core/Helper.py:113 | the tokens the name cleanup keeps are non-empty, hold no space, and none is `"\n"` or `"\r\n"` |
| Cleanup.Collapse | core/Helper.py:113-114 | a collapsed name has no space at either end and never two spaces in a row. It is empty exactly when the raw text has no non-blank token. The copies at Helper.py:112-113 and index.py:49-50 use the same cleanup |
| Cleanup.CollapseTokens | core/Helper.py:113-114 | splitting a non-empty collapsed name on spaces gives back exactly the non-blank tokens of the raw text, in order |
| Cleanup.CollapseIdempotent | core/Helper.py:113-114 | collapsing a collapsed name changes nothing |
| Cleanup.EntryNumber | core/Helper.py:112 | the cleaned entry number holds no `#` |
| Cleanup.EntryNumberKeeps | core/Helper.py:112 | the entry number is every character of the stripped cell except `#`, in order. So a space after a `#` survives |
| Cleanup.EntryNumberAfterHash | core/Helper.py:167 | a cell `#n`, with `n` free of `#` and not ending in whitespace, gives `n` |
| Cleanup.Finish | core/Helper.py:115 | the cleaned finish holds no `.` and has no surrounding whitespace. The copies at Helper.py:114 and index.py:51 use the same cleanup |
| Cleanup.FinishKeeps | core/Helper.py:115 | the finish is the text without its dots, with the surrounding whitespace cut off |
| Cleanup.FinishOfOrdinal | core/Helper.py:115 | a padded ordinal such as `  3. ` gives the bare number |
| Cleanup.FirstToken | core/Helper.py:119 | the time fails with IndexError exactly when every space-separated token is blank. Otherwise it holds no space and is stripped. The copies at Helper.py:118 and index.py:55 use the same rule |
| Cleanup.FirstTokenIsFirst | core/Helper.py:119 | the time is the first non-blank token, and every token before it is blank |
| Cleanup.CarText | core/Helper.py:116-118 | the car is IndexError when no child is truthy and TypeError when the first truthy child is an element. It succeeds exactly when the first truthy child is text, and the result is stripped |
| Cleanup.CarTextIsFirst | core/Helper.py:116-118 | the car is the first non-empty text child, stripped, and every child before it is empty text |
| Cleanup.FirstTruthyIsHead | core/Helper.py:117 | the first child the truthiness filter keeps is the first truthy child |
| Cleanup.NameParts | core/Helper.py:105 | the kept children of the name link are neither `<span>` elements nor bare newlines, and each comes from the link |
| Cleanup.NameAt | core/Helper.py:113-114 | a name is IndexError past the kept children and TypeError on a nested element. Otherwise it is well spaced |
| Results.ParseResultRaising | core/Helper.py:104-119 | the body of the `try` completes exactly when the row is parsable. Parsable means: the name link has two text parts; the number cell is present if the copy reads it; the finish and car cells are present, and the car's first truthy child is text; the times cell has a non-blank token |
| Results.ParseResult | core/Helper.py:103-122 | `None` exactly when the row is not parsable. Otherwise the event's keys are copied unchanged, and `entry_number` is present exactly in this copy and is the cleaned number cell. The driver and codriver are the collapsed texts of the first and second name parts, so they are well spaced, and the finish, car and time are their cleanups. The copies at Helper.py:103-121 and index.py:38-58 are the same parse with `entry_number` absent |
| Results.GetEvent | core/Helper.py:140 | one entry per table row, in page order: entry i is the parse of row i with the event's keys. An entry is present exactly when its row is parsable and then carries the event's season, round, name, URL and conditions |
| Results.GenerateResults | core/Helper.py:231-236 | the result count is the number of collected rows less the `None`s, and every result is a record from the collected rows |
| Results.GenerateResultsKeeps | core/Helper.py:236 | the filter keeps exactly the records in their order: the k-th result is the k-th non-`None` row, and the count is the number of rows less the `None`s. The same filter is at Helper.py:170 and index.py:82 |
| Results.GenerateResultsByEvent | core/Helper.py:231-236 | filtering the extended list is filtering each event's rows and concatenating them in event order |
| Results.KeptRowsCarryEvent | core/Helper.py:140 | every record kept from an event's page carries that event's season, round, name, URL and conditions |
| Results.EntryNumberOnlyDifference | index.py:38-58 | a row core/Helper.py parses is parsed by index.py and Helper.py to the same record without `entry_number` |
| Results.NumberCellIgnored | Helper.py:103-121 | every copy without `entry_number` (Helper.py:103-121 and index.py:38-58) gives the same result whatever the number cell holds, and core/Helper.py drops a row that lacks it |
| EntryList.ParseEntry | core/Helper.py:159-171 | the entry parses exactly when the row has a name link, a bold cell, an `href`, a number cell and two text name parts. The leg and start number are kept. The start time is the stripped last bold cell, and the car is the stripped second-to-last one (the same cell when there is only one). The URL is the `href`. The entry number is the cleaned number cell and holds no `#`. The driver and codriver are the collapsed texts of the first and second name parts, so they are well spaced |
| EntryList.ParseEntryErrors | core/Helper.py:159-169 | the first missing piece decides the error: AttributeError for the link, IndexError for the bold cells, KeyError for the `href`, AttributeError for the number cell, then TypeError when one of the first two name parts is an element and IndexError when a name part is missing |
| EntryList.EntryAt | core/Helper.py:194 | row i of a page parses exactly when it is parsable, and then it keeps the leg and gets start number i+1 |
| EntryList.ParsePage | core/Helper.py:194 | a leg's page parses exactly when every row does. Row i becomes start number i+1 of that leg, one record per row in page order. On failure, the error is that of the first failing row |
| EntryList.StopLeg | core/Helper.py:189-197 | the loop stops at the first leg whose page has no rows; every earlier leg has rows |
| EntryList.FirstEmptyFrom | core/Helper.py:196-197 | from a given leg on, the first leg without rows: all legs before it have rows |
| EntryList.CollectLegs | core/Helper.py:189-200 | the pages from a leg on parse exactly when every leg up to the first empty one parses |
| EntryList.CollectLegsError | core/Helper.py:189-198 | when the loop raises, the exception is that of a leg before the first one without rows, and every leg before that one parsed |
| EntryList.LegBlocks | core/Helper.py:198 | one block of records per leg, from the starting leg up to the first empty one |
| EntryList.CollectLegsPages | core/Helper.py:198 | when every leg parses, the result is the legs' records concatenated leg after leg |
| EntryList.EntryListPath | core/Helper.py:186 | the path fails with IndexError exactly when the URL has fewer than two `/`. Otherwise it is `/entries/` followed by a segment holding no `/` |
| EntryList.EntryListPathOf | core/Helper.py:186 | for an event URL `x/a/b…`, the path is `/entries/b` |
| EntryList.LegRequest | core/Helper.py:190 | the request for a leg is the base URL, the path and `/?leg=`, followed by digits that read back as the leg |
| EntryList.EntryLegs | core/Helper.py:189-200 | the legs from a given one on give an entry list exactly when every leg up to the first empty one parses |
| EntryList.LegRequestInjective | core/Helper.py:190 | different legs are requested under different URLs |
| EntryList.EntryLegsSucceed | core/Helper.py:194-197 | the entry list comes out exactly when every row of every leg before the first empty one is parsable |
| EntryList.EntryLegsByLeg | core/Helper.py:198-200 | the entry list is the legs' records concatenated in leg order, one block for each leg before the first empty one |
| EntryList.LegBlockRecords | core/Helper.py:163-164 | block k is leg k+1: one record per row of that page, numbered 1, 2, … in page order, each the parse of its row |
| EntryList.FetchLegs | core/Helper.py:187-200 | the loop returns the recursive definition's result. It requests legs 1, 2, … in order, each URL once. On success it requests exactly legs 1..N+1, where N+1 is the first empty leg. On failure the last leg requested is the one whose page raised, its exception is the result, and every leg requested before it parsed, so nothing past the failing leg is requested |
| EntryList.GetEventEntryList | core/Helper.py:173-200 | a URL with fewer than two `/` raises IndexError before any request. Otherwise the result is the entry list of the legs, and the requests are as for the loop: legs 1, 2, … in order, every one before the last parsed, and on failure the last one raised the returned exception |
| Seqs.MapIndexed | core/Helper.py:75 | an enumerate comprehension succeeds exactly when every element does, and element i is the parse of input i. On failure, it returns the error of the first failing element |
| Seqs.KeepSome | core/Helper.py:236 | the filter keeps no more values than the list holds, and each kept value is present in the list |
| Seqs.KeepSomeOrder | core/Helper.py:236 | the k-th kept value is the value at the k-th non-`None` position |
| Seqs.KeepSomeSize | core/Helper.py:236 | exactly the `None` entries are dropped |
| Seqs.KeepSomeFlatten | core/Helper.py:232-236 | filtering the extended list equals filtering each part and concatenating |
| Seqs.KeepSomeAllPresent | core/Helper.py:195 | on a list without `None` the filter returns the list unchanged |
| Seqs.Select | core/Helper.py:105 | a comprehension filter keeps no more elements than its input |
| Seqs.SelectElements | core/Helper.py:105 | every element a comprehension filter keeps is accepted by the condition and comes from the input |
| Seqs.SelectCount | core/Helper.py:105 | a comprehension filter keeps each accepted element as often as it occurs and drops the rest |
| Seqs.SelectConcat | core/Helper.py:105 | a comprehension filter keeps the input order |
| Seqs.SelectHead | core/Helper.py:117 | the first element a filter keeps is the first accepted element of the input |
| PyStr.Find | core/Helper.py:55 | `find` returns the leftmost occurrence, and `None` exactly when there is none |
| PyStr.Split | core/Helper.py:55 | `split` with a non-empty separator always gives at least one piece |
| PyStr.SplitPieces | core/Helper.py:55 | a split has one piece exactly when the separator is absent, and no piece holds the separator |
| PyStr.SplitJoin | core/Helper.py:55 | joining the pieces of a split with the separator gives the string back |
| PyStr.JoinSplit | core/Helper.py:113 | splitting a join of separator-free pieces on that one-character separator gives the pieces back |
| PyStr.SplitCount | core/Helper.py:186 | a one-character split has one more piece than there are separators |
| PyStr.Replace | core/Helper.py:55 | `replace` leaves a string without the target unchanged |
| PyStr.ReplaceLength | core/Helper.py:55 | `replace` changes the length by `|repl| - |target|` per replaced occurrence |
| PyStr.ReplaceCharDeletes | core/Helper.py:112 | `replace(c, "")` keeps every other character, in order |
| PyStr.Strip | core/Helper.py:165 | a stripped string starts and ends with a non-whitespace character |
| PyStr.StripMargins | core/Helper.py:165 | `strip` cuts only whitespace from either end |
| PyStr.StripUnique | core/Helper.py:165 | whitespace around a stripped string is exactly what `strip` removes |
| PyStr.StripIdempotent | core/Helper.py:165 | stripping twice is stripping once |
| PyStr.Decimal | core/Helper.py:190 | `str(n)` of a natural has at least one digit, only digits, and a leading `0` only for 0 |
| PyStr.DecimalRoundTrip | core/Helper.py:190 | reading back `str(leg)` gives the leg |
| PyStr.DecimalInjective | core/Helper.py:190 | different legs have different decimal texts |
| PyResult.PyIndex | core/Helper.py:165 | a list index succeeds exactly for `-len <= i < len`, and a negative index counts from the end. Otherwise it raises IndexError |
| PyResult.Present | core/Helper.py:159 | an attribute read on a `find` result succeeds exactly when the element is there. Otherwise it raises AttributeError |

## Left out

- **HTTP, login and session cookies** (core/Helper.py:20-33, `self.s.get`, index.py's module-level login). These are network I/O. Each fetched page is an input: a list of rows per event or per leg.
- **BeautifulSoup** (`find`, `find_all`, `.children`, `.text`). This is a foreign library. Each row is modelled by the optional cells and child lists the scraper reads; a child is text or an element.
- **`print`, pandas and the CSV files.** The `print`, DataFrame and CSV-writing lines of `generateEventCSV` and `generateResultCSV` (core/Helper.py:202-240), all of `generateEntryListCSV` (core/Helper.py:242-255), and the `print` of each requested URL (core/Helper.py:71 and 193, Helper.py:71, index.py:25). These are console and file output. The gathering and `None` filter of `generateResultCSV` (core/Helper.py:231-236) are modelled by `Results.GenerateResults`; `generateEntryListCSV` only calls `getEventEntryList` per event and writes the result.
- **The season and event page URLs** built in `getSeason` and `getEvent` (core/Helper.py:71-72, 137). They are only handed to the HTTP session, so each page's rows are an input instead.
- **`generateEventCSV`'s loop over the years 2000 to 2024.** It only calls `getSeason` per year and concatenates the results.
- **Other files.** core/ranker.py, core/trainer.py, core/scraper.py and core/index.py are not part of this model. They hold floating-point rating and learning code, and driver scripts.
- **Time conversion, word stripping, skipping bad entry rows.** None of these is modelled, because the code does none of them: times stay strings, condition words are all kept, and one bad entry row aborts the loop.
- WorkedCases.ConditionsOfDetail: covers words and distances without the letter `k` only. A word containing `km` loses it to the `replace` (`akma` becomes `aa`); for such words only the general facts of Cleanup.Conditions and Cleanup.ConditionsRejoin hold.
- PyStr.IsAlpha: exact for code points below U+0250 only. Letters of the scripts beyond it are treated as non-letters, because the full Unicode letter table is out of scope and the site's condition words are Latin.
- Cleanup.Conditions: requires a non-empty separator. Python's `split("")` raises ValueError, but every copy splits on a non-empty literal.
- EntryList.FetchLegs: the site is modelled as a finite list of pages, with no rows for every leg past its end. A site that keeps serving rows for ever, where the source loops for ever, is not modelled.
- **Python's `int` width.** Leg and start numbers are unbounded integers, as in Python.

=== FILE: cleanup.dfy ===
/**
 The text cleanups the scraper applies to the contents of table cells and
 event details, each a composition of Python string methods.
 */
module Cleanup {
  import opened PyResult
  import opened Seqs
  import opened PyStr

  /** A child of a markup element: a text node or a nested element (with its tag name). */
  datatype Node = Str(text: string) | Tag(name: string)

  /** The tokens `[e for e in s.split(" ") if e not in ["", "\n", "\r\n"]]` drops. */
  predicate IsBlankToken(t: string)
  {
    t == [] || t == "\n" || t == "\r\n"
  }

  /** The filter `e not in ["", "\n", "\r\n"]` as a function value. */
  const KeepToken: string -> bool := t => !IsBlankToken(t)

  /** The space-separated tokens of `s` that are not blank, in order. */
  function Tokens(s: string): (r: seq<string>)
    ensures forall i :: 0 <= i < |r| ==> r[i] != [] && ' ' !in r[i] && !IsBlankToken(r[i])
  {
    var pieces := Split(s, " ");
    SplitPieces(s, " ");
    var r := Select(pieces, KeepToken);
    SelectElements(pieces, KeepToken);
    assert forall i :: 0 <= i < |r| ==> ' ' !in r[i] by {
      forall i | 0 <= i < |r| ensures ' ' !in r[i] {
        OccursChar(r[i], ' ');
      }
    }
    r
  }

  /** No space at either end and never two spaces in a row. */
  predicate WellSpaced(s: string)
  {
    && (s == [] || (s[0] != ' ' && s[|s| - 1] != ' '))
    && forall i :: 0 <= i < |s| - 1 ==> !(s[i] == ' ' && s[i + 1] == ' ')
  }

  /** The driver and codriver cleanup: `" ".join` of the non-blank space-separated tokens. */
  function Collapse(s: string): (r: string)
    ensures WellSpaced(r)
    ensures r == [] <==> Tokens(s) == []
  {
    JoinSpacing(Tokens(s), ' ');
    Join(Tokens(s), " ")
  }

  /** The tokens of a collapsed name are exactly the non-blank tokens of the raw text. */
  lemma CollapseTokens(s: string)
    requires Collapse(s) != []
    ensures Split(Collapse(s), " ") == Tokens(s)
    ensures forall i :: 0 <= i < |Split(Collapse(s), " ")| ==> !IsBlankToken(Split(Collapse(s), " ")[i])
  {
    JoinSplit(Tokens(s), ' ');
  }

  /** Collapsing an already collapsed name changes nothing. */
  lemma CollapseIdempotent(s: string)
    ensures Collapse(Collapse(s)) == Collapse(s)
  {
    var r := Collapse(s);
    if r == [] {
      assert Split(r, " ") == [[]];
    } else {
      CollapseTokens(s);
      SelectAll(Tokens(s), KeepToken);
    }
  }

  /** The entry number cleanup `text.strip().replace("#", "")`. */
  function EntryNumber(text: string): (r: string)
    ensures '#' !in r
  {
    ReplaceCharDeletes(Strip(text), '#');
    SelectElements(Strip(text), c => c != '#');
    Replace(Strip(text), "#", "")
  }

  /** The entry number keeps every character of the stripped cell but `#`, in order. */
  lemma EntryNumberKeeps(text: string)
    ensures EntryNumber(text) == Select(Strip(text), c => c != '#')
  {
    ReplaceCharDeletes(Strip(text), '#');
  }

  /** A cell of `#` and then a number: the number is what remains, with any space after the `#`. */
  lemma EntryNumberAfterHash(n: string)
    requires '#' !in n && n != [] && !IsSpace(n[|n| - 1])
    ensures EntryNumber("#" + n) == n
  {
    var cell := "#" + n;
    assert IsStripped(cell);
    StripStripped(cell);
    EntryNumberKeeps(cell);
    SelectConcat("#", n, c => c != '#');
    SelectAll(n, c => c != '#');
  }

  /** A substring of `s` avoids every character that `s` avoids. */
  lemma StripAvoids(s: string, c: char)
    requires c !in s
    ensures c !in Strip(s)
  {
    var r := Strip(s);
    StripMargins(s);
    var a, b :| s == a + r + b && AllSpace(a) && AllSpace(b);
    assert c in r ==> c in a + r + b;
  }

  /** The finishing position cleanup `text.replace(".", "").strip()`. */
  function Finish(text: string): (r: string)
    ensures '.' !in r
    ensures IsStripped(r)
  {
    ReplaceCharDeletes(text, '.');
    SelectElements(text, c => c != '.');
    StripAvoids(Replace(text, ".", ""), '.');
    Strip(Replace(text, ".", ""))
  }

  /** The finish keeps exactly the non-`.` characters between the surrounding whitespace. */
  lemma FinishKeeps(text: string)
    ensures Finish(text) == Strip(Select(text, c => c != '.'))
  {
    ReplaceCharDeletes(text, '.');
  }

  lemma KeepDotFree(a: string)
    requires '.' !in a
    ensures Select(a, c => c != '.') == a
  {
    assert forall i :: 0 <= i < |a| ==> a[i] != '.';
    SelectAll(a, c => c != '.');
  }

  lemma DropMiddle(a: string, d: string, b: string, keep: char -> bool)
    requires Select(a, keep) == a && Select(d, keep) == [] && Select(b, keep) == b
    ensures Select(a + d + b, keep) == a + b
  {
    SelectConcat(a, d, keep);
    SelectConcat(a + d, b, keep);
  }

  /** A position with a trailing `.` and surrounding whitespace: the number alone remains. */
  lemma FinishOfOrdinal(a: string, t: string, b: string)
    requires AllSpace(a) && AllSpace(b) && IsStripped(t)
    requires '.' !in a && '.' !in t && '.' !in b
    ensures Finish(a + t + "." + b) == t
  {
    FinishKeeps(a + t + "." + b);
    KeepDotFree(a + t);
    KeepDotFree(b);
    assert Select(".", c => c != '.') == [];
    DropMiddle(a + t, ".", b, c => c != '.');
    StripUnique(a, t, b);
  }

  /** The time cleanup: the first non-blank space-separated token, stripped. */
  function FirstToken(text: string): (r: Result<string>)
    ensures r.Failure? <==> forall i :: 0 <= i < |Split(text, " ")| ==> IsBlankToken(Split(text, " ")[i])
    ensures r.Failure? ==> r.error == IndexError
    ensures r.Success? ==> ' ' !in r.value && IsStripped(r.value)
  {
    SelectEmpty(Split(text, " "), KeepToken);
    assert Tokens(text) == Select(Split(text, " "), KeepToken);
    var t :- PyIndex(Tokens(text), 0);
    StripAvoids(t, ' ');
    Success(Strip(t))
  }

  /** The token the time is taken from is the first non-blank one and is kept whole. */
  lemma FirstTokenIsFirst(text: string) returns (k: nat)
    requires FirstToken(text).Success?
    ensures k < |Split(text, " ")| && !IsBlankToken(Split(text, " ")[k])
    ensures forall j :: 0 <= j < k ==> IsBlankToken(Split(text, " ")[j])
    ensures FirstToken(text).value == Strip(Split(text, " ")[k])
  {
    k := SelectHead(Split(text, " "), KeepToken);
  }

  /** Python truthiness of a child node: an element is always true, a text node when not empty. */
  predicate Truthy(n: Node)
  {
    match n
    case Str(t) => t != []
    case Tag(_) => true
  }

  /** `k` is the position of the first truthy child. */
  predicate FirstTruthyAt(children: seq<Node>, k: nat)
  {
    k < |children| && Truthy(children[k]) && forall j :: 0 <= j < k ==> !Truthy(children[j])
  }

  lemma FirstTruthyUnique(children: seq<Node>, k: nat, k': nat)
    requires FirstTruthyAt(children, k) && FirstTruthyAt(children, k')
    ensures k == k'
  {
  }

  /** The first child the truthiness filter keeps is the first truthy child. */
  lemma FirstTruthyIsHead(children: seq<Node>)
    requires Select(children, Truthy) != []
    ensures exists k: nat :: FirstTruthyAt(children, k)
    ensures forall k: nat :: FirstTruthyAt(children, k) ==> Select(children, Truthy)[0] == children[k]
  {
    var k := SelectHead(children, Truthy);
    assert FirstTruthyAt(children, k);
    forall k': nat | FirstTruthyAt(children, k') ensures Select(children, Truthy)[0] == children[k'] {
      FirstTruthyUnique(children, k, k');
    }
  }

  /** The car cleanup `[c for c in children if c][0].strip()`. */
  function CarText(children: seq<Node>): (r: Result<string>)
    ensures r.Failure? && r.error == IndexError <==> forall i :: 0 <= i < |children| ==> !Truthy(children[i])
    ensures r.Failure? && r.error == TypeError <==> exists k: nat :: FirstTruthyAt(children, k) && children[k].Tag?
    ensures r.Success? <==> exists k: nat :: FirstTruthyAt(children, k) && children[k].Str?
    ensures r.Success? ==> IsStripped(r.value)
  {
    SelectEmpty(children, Truthy);
    if Select(children, Truthy) == [] then
      Failure(IndexError)
    else
      FirstTruthyIsHead(children);
      match Select(children, Truthy)[0]
      case Str(t) => Success(Strip(t))
      case Tag(_) => Failure(TypeError)
  }

  /** The car is the first non-empty text child, stripped; every child before it is empty text. */
  lemma CarTextIsFirst(children: seq<Node>) returns (k: nat)
    requires CarText(children).Success?
    ensures k < |children| && children[k].Str? && children[k].text != []
    ensures forall j :: 0 <= j < k ==> children[j] == Str([])
    ensures CarText(children).value == Strip(children[k].text)
  {
    SelectEmpty(children, Truthy);
    k := SelectHead(children, Truthy);
  }

  /** The children of the name link the scraper keeps: no `<span>` element and no bare newline. */
  predicate IsNamePart(n: Node)
  {
    match n
    case Tag(name) => name != "span"
    case Str(t) => t != "\n"
  }

  function NameParts(children: seq<Node>): (r: seq<Node>)
    ensures forall i :: 0 <= i < |r| ==> IsNamePart(r[i]) && r[i] in children
  {
    SelectElements(children, IsNamePart);
    Select(children, IsNamePart)
  }

  /** The i-th kept child of the name link, collapsed; a nested element has no `split`. */
  function NameAt(parts: seq<Node>, i: nat): (r: Result<string>)
    ensures r.Success? <==> i < |parts| && parts[i].Str?
    ensures r.Failure? && i >= |parts| ==> r.error == IndexError
    ensures r.Failure? && i < |parts| ==> r.error == TypeError
    ensures r.Success? ==> WellSpaced(r.value)
  {
    var n :- PyIndex(parts, i);
    match n
    case Str(t) => Success(Collapse(t))
    case Tag(_) => Failure(TypeError)
  }

  /** The characters the condition cleanup keeps: letters and `-`. */
  predicate IsTagChar(c: char)
  {
    IsAlpha(c) || c == '-'
  }

  /** The filter `e.isalpha() or e == '-'` as a function value. */
  const KeepTagChar: char -> bool := c => IsTagChar(c)

  /** `"".join(e for e in segment.replace("km", "") if e.isalpha() or e == '-')`. */
  function ConditionText(segment: string): (r: string)
    ensures forall i :: 0 <= i < |r| ==> IsTagChar(r[i])
  {
    SelectElements(Replace(segment, "km", ""), KeepTagChar);
    Select(Replace(segment, "km", ""), KeepTagChar)
  }

  /**
   The condition list of an event: the detail text after the first bullet and
   before the second, with `km` removed, letters and `-` kept, split on `-`.
   A detail text without a bullet has no second piece: IndexError.
   */
  function Conditions(text: string, bullet: string): (r: Result<seq<string>>)
    requires bullet != []
    ensures r.Failure? <==> !Occurs(text, bullet)
    ensures r.Failure? ==> r.error == IndexError
    ensures r.Success? ==> |r.value| >= 1
    ensures r.Success? ==> forall i, j :: 0 <= i < |r.value| && 0 <= j < |r.value[i]| ==> IsAlpha(r.value[i][j])
  {
    SplitPieces(text, bullet);
    var segment :- PyIndex(Split(text, bullet), 1);
    var tags := Split(ConditionText(segment), "-");
    SplitPieces(ConditionText(segment), "-");
    assert forall i :: 0 <= i < |tags| ==> '-' !in tags[i] by {
      forall i | 0 <= i < |tags| ensures '-' !in tags[i] {
        OccursChar(tags[i], '-');
      }
    }
    assert forall i, j :: 0 <= i < |tags| && 0 <= j < |tags[i]| ==> IsAlpha(tags[i][j]) by {
      SplitJoin(ConditionText(segment), "-");
      forall i, j | 0 <= i < |tags| && 0 <= j < |tags[i]| ensures IsAlpha(tags[i][j]) {
        JoinMember(tags, "-", i, j);
      }
    }
    Success(tags)
  }

  /** A character of a piece is a character of the join. */
  lemma {:induction false} JoinMember(ps: seq<string>, sep: string, i: nat, j: nat)
    requires i < |ps| && j < |ps[i]|
    ensures ps[i][j] in Join(ps, sep)
  {
    if i > 0 {
      JoinMember(ps[1..], sep, i - 1, j);
      var rest := Join(ps[1..], sep);
      assert Join(ps, sep) == ps[0] + sep + rest;
      assert forall c :: c in rest ==> c in Join(ps, sep);
    } else if |ps| > 1 {
      assert Join(ps, sep) == ps[0] + sep + Join(ps[1..], sep);
      assert Join(ps, sep)[j] == ps[0][j];
    }
  }

  /**
   The condition tags are the pieces of the filtered text: joining them with `-`
   gives it back, there is one more tag than there are `-`, and a leading `-`
   makes the first tag empty.
   */
  lemma ConditionsRejoin(text: string, bullet: string)
    requires bullet != [] && Occurs(text, bullet)
    ensures var filtered := ConditionText(Split(text, bullet)[1]);
      && Join(Conditions(text, bullet).value, "-") == filtered
      && |Conditions(text, bullet).value| == Count(filtered, '-') + 1
      && (filtered != [] && filtered[0] == '-' ==> Conditions(text, bullet).value[0] == [])
  {
    var filtered := ConditionText(Split(text, bullet)[1]);
    SplitJoin(filtered, "-");
    SplitCount(filtered, '-');
    if filtered != [] && filtered[0] == '-' {
      assert OccursAt(filtered, "-", 0);
    }
  }

  /**
   The segment the conditions come from lies between the first bullet and the
   next one (or the end of the text).
   */
  lemma ConditionSegment(text: string, bullet: string) returns (before: string, after: string)
    requires bullet != [] && Occurs(text, bullet)
    ensures text == before + bullet + Split(text, bullet)[1] + after
    ensures !Occurs(before, bullet) && !Occurs(Split(text, bullet)[1], bullet)
    ensures after == [] || (|bullet| <= |after| && after[..|bullet|] == bullet)
  {
    var ps := Split(text, bullet);
    SplitPieces(text, bullet);
    SplitHead(text, bullet);
    before := ps[0];
    var tail := Join(ps[1..], bullet);
    assert ps[1..][0] == ps[1];
    if |ps| == 2 {
      after := [];
      assert tail == ps[1];
    } else {
      after := bullet + Join(ps[2..], bullet);
      assert ps[1..][1..] == ps[2..];
      assert tail == ps[1] + after;
    }
  }
}

=== FILE: entry_list.dfy ===
/**
 The entry lists of an event (core/Helper.py only): `parseEntry` turns one row
 of an entry list into a record, and `getEventEntryList` derives the entry
 list path from the event URL and fetches leg 1, 2, ... until a leg has no
 rows, putting the legs' records together.

 The fetches are an input: `pages[l - 1]` holds the rows the site returns for
 leg `l`, and every leg after the last page has no rows. The markup queries
 are inputs as well: `entry.find("a")` is the optional name link (its
 children and its optional `href`), the bold cells are given by their texts.
 */
module EntryList {
  import opened PyResult
  import opened Seqs
  import opened PyStr
  import opened Cleanup

  /** The name link of an entry row: its children and its `href`, if it has one. */
  datatype EntryAnchor = EntryAnchor(children: seq<Node>, href: Option<string>)

  /** What `parseEntry` reads from a table row. */
  datatype RawEntryRow = RawEntryRow(
    anchor: Option<EntryAnchor>,  // `entry.find("a")`
    boldCells: seq<string>,       // texts of the `font-weight-bold` cells, in order
    numberCell: Option<string>    // text of the `final-results-number` cell
  )

  /** The dictionary `parseEntry` returns. */
  datatype EntryRecord = EntryRecord(
    leg: int, startNumber: int, startTime: string, url: string,
    entryNumber: string, driver: string, codriver: string, car: string)

  /** A row from which `parseEntry` raises nothing. */
  predicate EntryParsable(row: RawEntryRow)
  {
    && row.anchor.Some?
    && |row.boldCells| >= 1
    && row.anchor.value.href.Some?
    && row.numberCell.Some?
    && |NameParts(row.anchor.value.children)| >= 2
    && NameParts(row.anchor.value.children)[0].Str? && NameParts(row.anchor.value.children)[1].Str?
  }

  /**
   `parseEntry(leg, startNumber, entry)`. The start time is the last bold cell
   and the car the one before it, both with Python's negative indexing: with a
   single bold cell, `bolds[len(bolds) - 2]` is that same cell, so the car is
   the start time. There is no `try`: a missing piece raises (ParseEntryErrors
   says which).
   */
  function ParseEntry(leg: int, startNumber: int, row: RawEntryRow): (r: Result<EntryRecord>)
    ensures r.Success? <==> EntryParsable(row)
    ensures r.Success? ==> r.value.leg == leg && r.value.startNumber == startNumber
    ensures r.Success? ==> r.value.startTime == Strip(row.boldCells[|row.boldCells| - 1])
    ensures r.Success? && |row.boldCells| >= 2 ==> r.value.car == Strip(row.boldCells[|row.boldCells| - 2])
    ensures r.Success? && |row.boldCells| == 1 ==> r.value.car == r.value.startTime
    ensures r.Success? ==> r.value.url == row.anchor.value.href.value
    ensures r.Success? ==> r.value.entryNumber == EntryNumber(row.numberCell.value) && '#' !in r.value.entryNumber
    ensures r.Success? ==> && r.value.driver == Collapse(NameParts(row.anchor.value.children)[0].text)
                           && r.value.codriver == Collapse(NameParts(row.anchor.value.children)[1].text)
                           && WellSpaced(r.value.driver) && WellSpaced(r.value.codriver)
  {
    var anchor :- Present(row.anchor);
    var parts := NameParts(anchor.children);
    var bolds := row.boldCells;
    var startCell :- PyIndex(bolds, |bolds| - 1);
    var url :- match anchor.href case Some(u) => Success(u) case None => Failure(KeyError);
    var numberCell :- Present(row.numberCell);
    var driver :- NameAt(parts, 0);
    var codriver :- NameAt(parts, 1);
    var carCell := PyIndex(bolds, |bolds| - 2).value;
    Success(EntryRecord(leg, startNumber, Strip(startCell), url, EntryNumber(numberCell), driver, codriver, Strip(carCell)))
  }

  /**
   The error `parseEntry` raises is that of the first piece it reads that is
   missing: the link, the last bold cell, the `href`, the number cell, then the
   two name parts.
   */
  lemma ParseEntryErrors(leg: int, startNumber: int, row: RawEntryRow)
    ensures row.anchor.None? ==> ParseEntry(leg, startNumber, row) == Failure(AttributeError)
    ensures row.anchor.Some? && row.boldCells == [] ==> ParseEntry(leg, startNumber, row) == Failure(IndexError)
    ensures row.anchor.Some? && row.boldCells != [] && row.anchor.value.href.None?
            ==> ParseEntry(leg, startNumber, row) == Failure(KeyError)
    ensures row.anchor.Some? && row.boldCells != [] && row.anchor.value.href.Some? && row.numberCell.None?
            ==> ParseEntry(leg, startNumber, row) == Failure(AttributeError)
    ensures var parts := NameParts(if row.anchor.Some? then row.anchor.value.children else []);
            row.anchor.Some? && row.boldCells != [] && row.anchor.value.href.Some? && row.numberCell.Some?
            && !EntryParsable(row)
            ==> ParseEntry(leg, startNumber, row)
                == Failure(if (|parts| >= 1 && parts[0].Tag?) || (|parts| >= 2 && parts[1].Tag?) then TypeError else IndexError)
  {
  }

  /** The comprehension's element: the row at position `index` gets start number `index + 1`. */
  function EntryAt(leg: int, index: nat, row: RawEntryRow): (r: Result<EntryRecord>)
    ensures r.Success? <==> EntryParsable(row)
    ensures r.Success? ==> r.value.leg == leg && r.value.startNumber == index + 1
  {
    ParseEntry(leg, index + 1, row)
  }

  /** One leg's rows parsed with start numbers 1, 2, ...; the first row that fails aborts. */
  function ParsePage(leg: int, rows: seq<RawEntryRow>): (r: Result<seq<EntryRecord>>)
    ensures r.Success? <==> forall i :: 0 <= i < |rows| ==> EntryParsable(rows[i])
    ensures r.Success? ==> |r.value| == |rows|
    ensures r.Success? ==> forall i :: 0 <= i < |rows| ==> r.value[i].leg == leg && r.value[i].startNumber == i + 1
    ensures r.Success? ==> forall i :: 0 <= i < |rows| ==> r.value[i] == EntryAt(leg, i, rows[i]).value
    ensures r.Failure? ==>
      exists i :: 0 <= i < |rows| && EntryAt(leg, i, rows[i]) == Failure(r.error)
                  && forall j :: 0 <= j < i ==> EntryParsable(rows[j])
  {
    MapIndexed((i: nat, row: RawEntryRow) => EntryAt(leg, i, row), rows)
  }

  /** The rows the site returns for leg `leg`; none past the last page. */
  function PageAt(pages: seq<seq<RawEntryRow>>, leg: int): seq<RawEntryRow>
  {
    if 1 <= leg <= |pages| then pages[leg - 1] else []
  }

  /** The first leg from `leg` on whose page has no rows. */
  function FirstEmptyFrom(pages: seq<seq<RawEntryRow>>, leg: nat): (r: nat)
    requires leg >= 1
    ensures leg <= r <= |pages| + 1 || r == leg
    ensures PageAt(pages, r) == []
    ensures forall l :: leg <= l < r ==> PageAt(pages, l) != []
    decreases |pages| + 1 - leg
  {
    if PageAt(pages, leg) == [] then leg else FirstEmptyFrom(pages, leg + 1)
  }

  /** The leg at which the loop stops: the first leg without rows. */
  function StopLeg(pages: seq<seq<RawEntryRow>>): (r: nat)
    ensures 1 <= r <= |pages| + 1
    ensures PageAt(pages, r) == [] && forall l :: 1 <= l < r ==> PageAt(pages, l) != []
  {
    FirstEmptyFrom(pages, 1)
  }

  /**
   What the loop needs of the per-leg parse: a page it parses gives one record
   per row (so a page with rows never parses to nothing), and a page without
   rows parses.
   */
  ghost predicate PageParser(parse: (int, seq<RawEntryRow>) -> Result<seq<EntryRecord>>)
  {
    && (forall leg, rows :: parse(leg, rows).Success? ==> |parse(leg, rows).value| == |rows|)
    && (forall leg :: parse(leg, []).Success?)
  }

  /** The entry list parse is such a parse. */
  lemma ParsePageIsPageParser()
    ensures PageParser(ParsePage)
  {
    forall leg, rows | ParsePage(leg, rows).Success? ensures |ParsePage(leg, rows).value| == |rows| {
    }
  }

  /**
   What the loop computes from leg `leg` on: each leg's records, until the
   first leg whose page parses to nothing; a leg whose parse raises aborts the
   whole list.
   */
  function CollectLegs(parse: (int, seq<RawEntryRow>) -> Result<seq<EntryRecord>>,
                       pages: seq<seq<RawEntryRow>>, leg: nat): (r: Result<seq<EntryRecord>>)
    requires leg >= 1 && PageParser(parse)
    ensures r.Success? <==> LegsParse(parse, pages, leg)
    decreases |pages| + 1 - leg
  {
    var page :- parse(leg, PageAt(pages, leg));
    if page == [] then Success([])
    else
      var rest :- CollectLegs(parse, pages, leg + 1);
      Success(page + rest)
  }

  /**
   When the loop raises, the exception is that of some leg before the first
   one without rows, and every leg before that one parsed.
   */
  lemma {:induction false} CollectLegsError(parse: (int, seq<RawEntryRow>) -> Result<seq<EntryRecord>>,
                                            pages: seq<seq<RawEntryRow>>, leg: nat)
    requires leg >= 1 && PageParser(parse)
    ensures CollectLegs(parse, pages, leg).Failure? ==>
      exists l :: leg <= l < FirstEmptyFrom(pages, leg)
                  && parse(l, PageAt(pages, l)) == Failure(CollectLegs(parse, pages, leg).error)
                  && forall l' :: leg <= l' < l ==> parse(l', PageAt(pages, l')).Success?
    decreases |pages| + 1 - leg
  {
    var first := parse(leg, PageAt(pages, leg));
    if first.Success? && first.value != [] {
      CollectLegsError(parse, pages, leg + 1);
    }
  }

  /** Every leg from `leg` up to the first one without rows parses. */
  ghost predicate LegsParse(parse: (int, seq<RawEntryRow>) -> Result<seq<EntryRecord>>,
                            pages: seq<seq<RawEntryRow>>, leg: nat)
    requires leg >= 1
  {
    forall l :: leg <= l < FirstEmptyFrom(pages, leg) ==> parse(l, PageAt(pages, l)).Success?
  }

  /** The records of each leg from `leg` up to the first one without rows, one block per leg. */
  function LegBlocks(parse: (int, seq<RawEntryRow>) -> Result<seq<EntryRecord>>,
                     pages: seq<seq<RawEntryRow>>, leg: nat): (r: seq<seq<EntryRecord>>)
    requires leg >= 1 && LegsParse(parse, pages, leg)
    ensures |r| == FirstEmptyFrom(pages, leg) - leg
    ensures forall k :: 0 <= k < |r| ==> r[k] == parse(leg + k, PageAt(pages, leg + k)).value
  {
    var stop := FirstEmptyFrom(pages, leg);
    seq(stop - leg, k requires 0 <= k < stop - leg => parse(leg + k, PageAt(pages, leg + k)).value)
  }

  /** When every leg parses, the loop's result is the legs' records, leg after leg. */
  lemma {:induction false} CollectLegsPages(parse: (int, seq<RawEntryRow>) -> Result<seq<EntryRecord>>,
                                            pages: seq<seq<RawEntryRow>>, leg: nat)
    requires leg >= 1 && PageParser(parse) && LegsParse(parse, pages, leg)
    ensures CollectLegs(parse, pages, leg) == Success(Flatten(LegBlocks(parse, pages, leg)))
    decreases |pages| + 1 - leg
  {
    var blocks := LegBlocks(parse, pages, leg);
    if PageAt(pages, leg) != [] {
      assert FirstEmptyFrom(pages, leg) == FirstEmptyFrom(pages, leg + 1);
      CollectLegsPages(parse, pages, leg + 1);
      assert blocks[1..] == LegBlocks(parse, pages, leg + 1);
      assert |blocks[0]| == |PageAt(pages, leg)|;
    } else {
      assert parse(leg, []).Success? && |parse(leg, []).value| == 0;
    }
  }

  const BaseURL: string := "https://www.ewrc-results.com"

  /** `'/entries/' + event['url'].split('/')[2]`: IndexError when the URL has fewer than two `/`. */
  function EntryListPath(url: string): (r: Result<string>)
    ensures r.Failure? <==> Count(url, '/') < 2
    ensures r.Failure? ==> r.error == IndexError
    ensures r.Success? ==> |r.value| >= 9 && r.value[..9] == "/entries/" && '/' !in r.value[9..]
  {
    SplitCount(url, '/');
    SplitPieces(url, "/");
    var segment :- PyIndex(Split(url, "/"), 2);
    OccursChar(segment, '/');
    assert ("/entries/" + segment)[9..] == segment;
    Success("/entries/" + segment)
  }

  /** Splitting `x/a/t` on `/` gives `x`, `a` and then the pieces of `t`. */
  lemma SplitTwo(x: string, a: string, t: string, sep: string)
    requires sep != [] && sep[0] !in x && sep[0] !in a
    ensures Split(x + sep + a + sep + t, sep) == [x, a] + Split(t, sep)
  {
    assert x + sep + a + sep + t == x + sep + (a + sep + t);
    SplitFirst(x, sep, a + sep + t);
    SplitFirst(a, sep, t);
  }

  /** The first piece of `b` followed by nothing or by a separator is `b`. */
  lemma FirstPiece(b: string, rest: string, sep: string)
    requires |sep| == 1 && sep[0] !in b
    requires rest == [] || (|rest| >= 1 && rest[..1] == sep)
    ensures Split(b + rest, sep)[0] == b
  {
    if rest == [] {
      assert b + rest == b;
      SplitAbsent(b, sep);
      assert Split(b + rest, sep) == [b];
    } else {
      var t := rest[1..];
      assert rest == sep + t;
      assert b + rest == b + sep + t;
      SplitFirst(b, sep, t);
      assert Split(b + rest, sep) == [b] + Split(t, sep);
    }
  }

  /** The third piece of `x/a/b...` split on a one-character separator is `b`. */
  lemma ThirdPiece(x: string, a: string, b: string, rest: string, sep: string)
    requires |sep| == 1 && sep[0] !in x && sep[0] !in a && sep[0] !in b
    requires rest == [] || (|rest| >= 1 && rest[..1] == sep)
    ensures |Split(x + sep + a + sep + b + rest, sep)| >= 3
    ensures Split(x + sep + a + sep + b + rest, sep)[2] == b
  {
    assert x + sep + a + sep + b + rest == x + sep + a + sep + (b + rest);
    SplitTwo(x, a, b + rest, sep);
    FirstPiece(b, rest, sep);
  }

  /** For an event URL `x/a/b...`, the entry list path is `/entries/b`. */
  lemma EntryListPathOf(x: string, a: string, b: string, rest: string)
    requires '/' !in x && '/' !in a && '/' !in b
    requires rest == [] || rest[0] == '/'
    ensures EntryListPath(x + "/" + a + "/" + b + rest) == Success("/entries/" + b)
  {
    if rest != [] {
      assert rest[..1] == "/";
    }
    ThirdPiece(x, a, b, rest, "/");
  }

  /** `self.baseURL + entryListURL + '/?leg=' + str(leg)`. */
  function LegRequest(path: string, leg: nat): (r: string)
    ensures var prefix := BaseURL + path + "/?leg=";
      && |prefix| < |r| && r[..|prefix|] == prefix
      && IsDigits(r[|prefix|..]) && DecimalValue(r[|prefix|..]) == leg
  {
    var prefix := BaseURL + path + "/?leg=";
    DecimalRoundTrip(leg);
    assert (prefix + Decimal(leg))[|prefix|..] == Decimal(leg);
    prefix + Decimal(leg)
  }

  /** Different legs are requested with different URLs. */
  lemma LegRequestInjective(path: string, l: nat, l': nat)
    requires LegRequest(path, l) == LegRequest(path, l')
    ensures l == l'
  {
    var prefix := BaseURL + path + "/?leg=";
    assert LegRequest(path, l)[|prefix|..] == Decimal(l);
    assert LegRequest(path, l')[|prefix|..] == Decimal(l');
    DecimalInjective(l, l');
  }

  /** The requests for legs 1 to `n`, in order. */
  function LegRequests(path: string, n: nat): (r: seq<string>)
  {
    seq(n, i requires 0 <= i < n => LegRequest(path, i + 1))
  }

  /** The entry list of the legs from `leg` on. */
  function EntryLegs(pages: seq<seq<RawEntryRow>>, leg: nat): (r: Result<seq<EntryRecord>>)
    requires leg >= 1
    ensures r.Success? <==> LegsParse(ParsePage, pages, leg)
  {
    ParsePageIsPageParser();
    CollectLegs(ParsePage, pages, leg)
  }

  /**
   The entry list comes out only when every row of every leg up to the first
   leg without rows parses: there is no `try` in `parseEntry`, so one bad row
   aborts the whole list, and the `None` filter never removes anything.
   */
  lemma EntryLegsSucceed(pages: seq<seq<RawEntryRow>>)
    ensures EntryLegs(pages, 1).Success? <==>
      forall l, i :: 1 <= l < StopLeg(pages) && 0 <= i < |PageAt(pages, l)| ==> EntryParsable(PageAt(pages, l)[i])
  {
    ParsePageIsPageParser();
    if EntryLegs(pages, 1).Success? {
      forall l, i | 1 <= l < StopLeg(pages) && 0 <= i < |PageAt(pages, l)|
        ensures EntryParsable(PageAt(pages, l)[i])
      {
        assert ParsePage(l, PageAt(pages, l)).Success?;
      }
    } else {
      var l :| 1 <= l < StopLeg(pages) && ParsePage(l, PageAt(pages, l)).Failure?;
      var i :| 0 <= i < |PageAt(pages, l)| && !EntryParsable(PageAt(pages, l)[i]);
    }
  }

  /**
   When the entry list comes out, it is the legs' records leg after leg, one
   block per leg from leg 1 up to the first leg without rows.
   */
  lemma EntryLegsByLeg(pages: seq<seq<RawEntryRow>>)
    requires LegsParse(ParsePage, pages, 1)
    ensures EntryLegs(pages, 1) == Success(Flatten(LegBlocks(ParsePage, pages, 1)))
    ensures |LegBlocks(ParsePage, pages, 1)| == StopLeg(pages) - 1
  {
    ParsePageIsPageParser();
    CollectLegsPages(ParsePage, pages, 1);
  }

  /** Block `k` is leg `k + 1`: one record per row, numbered 1, 2, ... in page order. */
  lemma LegBlockRecords(pages: seq<seq<RawEntryRow>>, k: nat)
    requires LegsParse(ParsePage, pages, 1) && k < StopLeg(pages) - 1
    ensures var block := LegBlocks(ParsePage, pages, 1)[k];
      && |block| == |PageAt(pages, k + 1)|
      && forall i :: 0 <= i < |block| ==>
           && block[i] == ParseEntry(k + 1, i + 1, PageAt(pages, k + 1)[i]).value
           && block[i].leg == k + 1 && block[i].startNumber == i + 1
  {
    assert LegBlocks(ParsePage, pages, 1)[k] == ParsePage(1 + k, PageAt(pages, 1 + k)).value;
  }

  /** A partial result extended at the front. */
  function Prepend(done: seq<EntryRecord>, r: Result<seq<EntryRecord>>): Result<seq<EntryRecord>>
  {
    match r
    case Success(rest) => Success(done + rest)
    case Failure(e) => Failure(e)
  }

  /** Extending at the front in two steps is extending by both at once. */
  lemma PrependTwice(done: seq<EntryRecord>, page: seq<EntryRecord>, r: Result<seq<EntryRecord>>)
    ensures Prepend(done + page, r) == Prepend(done, Prepend(page, r))
  {
    if r.Success? {
      assert (done + page) + r.value == done + (page + r.value);
    }
  }

  /** Requesting one more leg extends the list of requests by that leg's URL. */
  lemma LegRequestsNext(path: string, n: nat)
    ensures LegRequests(path, n) + [LegRequest(path, n + 1)] == LegRequests(path, n + 1)
  {
  }

  /** A leg whose page parses to some rows contributes them in front of the later legs. */
  lemma CollectLegsNext(parse: (int, seq<RawEntryRow>) -> Result<seq<EntryRecord>>,
                        pages: seq<seq<RawEntryRow>>, leg: nat, done: seq<EntryRecord>, page: seq<EntryRecord>)
    requires leg >= 1 && PageParser(parse)
    requires parse(leg, PageAt(pages, leg)) == Success(page) && page != []
    ensures Prepend(done + page, CollectLegs(parse, pages, leg + 1)) == Prepend(done, CollectLegs(parse, pages, leg))
  {
    assert CollectLegs(parse, pages, leg) == Prepend(page, CollectLegs(parse, pages, leg + 1));
    PrependTwice(done, page, CollectLegs(parse, pages, leg + 1));
  }

  /**
   The loop of `getEventEntryList`, for the entry list at `path`: request leg
   1, 2, ..., parse each page with `parse`, drop the `None`s, and stop at the
   first leg that gives nothing. `requested` lists the URLs fetched, in order.
   */
  method FetchLegs(path: string, pages: seq<seq<RawEntryRow>>,
                   parse: (int, seq<RawEntryRow>) -> Result<seq<EntryRecord>>)
    returns (r: Result<seq<EntryRecord>>, requested: seq<string>)
    requires PageParser(parse)
    ensures r == CollectLegs(parse, pages, 1)
    ensures 1 <= |requested| <= StopLeg(pages) && requested == LegRequests(path, |requested|)
    ensures r.Success? ==> |requested| == StopLeg(pages)
    ensures r.Failure? ==> parse(|requested|, PageAt(pages, |requested|)) == Failure(r.error)
    ensures forall l :: 1 <= l < |requested| ==> parse(l, PageAt(pages, l)).Success?
  {
    var leg := 1;
    var finalList: seq<EntryRecord> := [];
    requested := [];
    assert Prepend(finalList, CollectLegs(parse, pages, leg)) == CollectLegs(parse, pages, 1) by {
      if CollectLegs(parse, pages, 1).Success? {
        assert [] + CollectLegs(parse, pages, 1).value == CollectLegs(parse, pages, 1).value;
      }
    }
    while true
      invariant 1 <= leg <= StopLeg(pages)
      invariant requested == LegRequests(path, leg - 1)
      invariant forall l :: 1 <= l < leg ==> parse(l, PageAt(pages, l)).Success?
      invariant Prepend(finalList, CollectLegs(parse, pages, leg)) == CollectLegs(parse, pages, 1)
      decreases StopLeg(pages) - leg
    {
      LegRequestsNext(path, leg - 1);
      requested := requested + [LegRequest(path, leg)];
      var parsed := parse(leg, PageAt(pages, leg));
      if parsed.Failure? {
        return Failure(parsed.error), requested;
      }
      var page := parsed.value;
      // `[e for e in entryList if e is not None]`: no parsed row is `None`.
      KeepSomeAllPresent(page);
      var kept := KeepSome(AllSome(page));
      if kept == [] {
        assert finalList + [] == finalList;
        break;
      }
      CollectLegsNext(parse, pages, leg, finalList, page);
      finalList := finalList + kept;
      leg := leg + 1;
    }
    r := Success(finalList);
  }

  /**
   `getEventEntryList(event)`, with the fetches given by `pages`: the entry
   list path comes from the event URL, then the loop runs with `parseEntry`
   on every row. The result is the legs' records from leg 1 on, or the first
   exception; `requested` lists the URLs fetched: legs 1, 2, ... up to the
   first leg without rows, or up to the leg whose parsing raised.
   */
  method GetEventEntryList(url: string, pages: seq<seq<RawEntryRow>>)
    returns (r: Result<seq<EntryRecord>>, requested: seq<string>)
    ensures EntryListPath(url).Failure? ==> r == Failure(IndexError) && requested == []
    ensures EntryListPath(url).Success? ==> r == EntryLegs(pages, 1)
    ensures EntryListPath(url).Success? ==>
      1 <= |requested| <= StopLeg(pages) && requested == LegRequests(EntryListPath(url).value, |requested|)
    ensures EntryListPath(url).Success? && r.Success? ==> |requested| == StopLeg(pages)
    ensures EntryListPath(url).Success? && r.Failure? ==> ParsePage(|requested|, PageAt(pages, |requested|)) == Failure(r.error)
    ensures EntryListPath(url).Success? ==> forall l :: 1 <= l < |requested| ==> ParsePage(l, PageAt(pages, l)).Success?
  {
    var pathResult := EntryListPath(url);
    if pathResult.Failure? {
      return Failure(pathResult.error), [];
    }
    ParsePageIsPageParser();
    r, requested := FetchLegs(pathResult.value, pages, ParsePage);
  }
}

=== FILE: events.dfy ===
/**
 The season listing: `parseEvent` turns one `season-event` block into an event
 record and `getSeason` numbers the blocks of a season page in document order.

 The markup queries are inputs: `event.find("a")` is the optional title link
 (its text and optional `href`), `event.find("span").text` the optional detail
 text.
 */
module Events {
  import opened PyResult
  import opened Seqs
  import opened PyStr
  import opened Cleanup
  import opened Variants

  /** A link element: its text and its `href` attribute, if it has one. */
  datatype Link = Link(text: string, href: Option<string>)

  /** What `parseEvent` reads from a `season-event` block. */
  datatype RawEvent = RawEvent(title: Option<Link>, details: Option<string>)

  /** The dictionary `parseEvent` returns. */
  datatype Event = Event(season: int, round: int, name: string, url: string, conditions: seq<string>)

  /** Everything `parseEvent` needs is there: a title link with an `href` and a detail text holding the separator. */
  ghost predicate WellFormedEvent(v: Variant, raw: RawEvent)
  {
    && raw.title.Some? && raw.title.value.href.Some?
    && raw.details.Some? && Occurs(raw.details.value, v.bullet)
  }

  /**
   `parseEvent(season, round, event)`: the link text is the name, its `href` the
   URL, the conditions come from the detail text, and the round is the index
   plus one. Each missing piece raises, in the order `parseEvent` reads them.
   */
  function ParseEvent(v: Variant, season: int, index: int, raw: RawEvent): (r: Result<Event>)
    requires v.bullet != []
    ensures r.Success? <==> WellFormedEvent(v, raw)
    ensures raw.title.None? ==> r == Failure(AttributeError)
    ensures raw.title.Some? && raw.title.value.href.None? ==> r == Failure(KeyError)
    ensures raw.title.Some? && raw.title.value.href.Some? && raw.details.None? ==> r == Failure(AttributeError)
    ensures raw.title.Some? && raw.title.value.href.Some? && raw.details.Some? && !Occurs(raw.details.value, v.bullet)
            ==> r == Failure(IndexError)
    ensures r.Success? ==> r.value.season == season && r.value.round == index + 1
    ensures r.Success? ==> r.value.name == raw.title.value.text && r.value.url == raw.title.value.href.value
    ensures r.Success? ==> r.value.conditions == Conditions(raw.details.value, v.bullet).value
  {
    var title :- Present(raw.title);
    var url :- match title.href case Some(u) => Success(u) case None => Failure(KeyError);
    var details :- Present(raw.details);
    var conditions :- Conditions(details, v.bullet);
    Success(Event(season, index + 1, title.text, url, conditions))
  }

  /**
   `getSeason`: every block of the page parsed with its position; the first
   block that fails aborts the season.
   */
  function GetSeason(v: Variant, season: int, raws: seq<RawEvent>): (r: Result<seq<Event>>)
    requires v.bullet != []
    ensures r.Success? <==> forall i :: 0 <= i < |raws| ==> WellFormedEvent(v, raws[i])
    ensures r.Success? ==> |r.value| == |raws|
    ensures r.Success? ==> forall i :: 0 <= i < |raws| ==> r.value[i].round == i + 1 && r.value[i].season == season
    ensures r.Success? ==> forall i :: 0 <= i < |raws| ==> r.value[i] == ParseEvent(v, season, i, raws[i]).value
    ensures r.Failure? ==>
      exists i :: 0 <= i < |raws| && ParseEvent(v, season, i, raws[i]) == Failure(r.error)
                  && forall j :: 0 <= j < i ==> WellFormedEvent(v, raws[j])
  {
    MapIndexed((i: nat, raw: RawEvent) => ParseEvent(v, season, i, raw), raws)
  }

  /**
   The copy in Helper.py splits on the mis-decoded bullet: a block whose detail
   text has a real bullet and no `â` parses in core/Helper.py and index.py but
   raises IndexError there.
   */
  lemma MojibakeSeparatorFails(season: int, index: int, raw: RawEvent)
    requires raw.title.Some? && raw.title.value.href.Some? && raw.details.Some?
    requires Occurs(raw.details.value, Bullet) && '\U{E2}' !in raw.details.value
    ensures ParseEvent(CoreHelper, season, index, raw).Success?
    ensures ParseEvent(RootIndex, season, index, raw) == ParseEvent(CoreHelper, season, index, raw)
    ensures ParseEvent(RootHelper, season, index, raw) == Failure(IndexError)
  {
    AbsentHead(raw.details.value, MojibakeBullet);
  }
}

=== FILE: py_result.dfy ===
/**
 The failure-carrying values the scraper model is written with.

 The scraper signals every failed lookup by a Python exception. `Result`
 carries either a value or the exception class that a step raises, and it can
 be used with `:-` so that the first failing step aborts the rest, as an
 uncaught exception does. `Option` stands for a Python value that may be `None`.
 */
module PyResult {

  /** The exception classes that the scraper's lookups raise. */
  datatype PyError =
    | IndexError      // `xs[i]` outside the list
    | KeyError        // `tag['href']` on a tag without the attribute
    | AttributeError  // `.text` or `.children` of a `find` that returned `None`
    | TypeError       // a string method called on a markup tag instead of a string

  datatype Result<+T> = Success(value: T) | Failure(error: PyError) {

    predicate IsFailure() {
      Failure?
    }

    function PropagateFailure<U>(): Result<U>
      requires Failure?
    {
      Failure(error)
    }

    function Extract(): T
      requires Success?
    {
      value
    }
  }

  datatype Option<+T> = None | Some(value: T)

  /** Python's `xs[i]`: a negative index counts from the end of the list. */
  function PyIndex<T>(xs: seq<T>, i: int): (r: Result<T>)
    ensures r.Success? <==> -|xs| <= i < |xs|
    ensures r.Failure? ==> r.error == IndexError
    ensures r.Success? && 0 <= i ==> r.value == xs[i]
    ensures r.Success? && i < 0 ==> r.value == xs[|xs| + i]
  {
    if 0 <= i < |xs| then Success(xs[i])
    else if -|xs| <= i < 0 then Success(xs[|xs| + i])
    else Failure(IndexError)
  }

  /** Attribute access on the outcome of a BeautifulSoup `find`: `None` has no attributes. */
  function Present<T>(o: Option<T>): (r: Result<T>)
    ensures r.Success? <==> o.Some?
    ensures r.Success? ==> r.value == o.value
    ensures r.Failure? ==> r.error == AttributeError
  {
    match o
    case Some(x) => Success(x)
    case None => Failure(AttributeError)
  }
}

=== FILE: py_str.dfy ===
/**
 The Python string methods the scraper's cleanups are written with, on
 strings as sequences of code points: `str.isspace`, `str.isalpha`,
 `str.split(sep)`, `sep.join`, `str.replace`, `str.strip` and `str(n)`.
 */
module PyStr {
  import opened PyResult
  import opened Seqs

  /** `str.isspace` on one code point: the characters CPython treats as whitespace. */
  predicate IsSpace(c: char)
  {
    || '\t' <= c <= '\r'
    || '\U{1C}' <= c <= ' '
    || c == '\U{85}' || c == '\U{A0}' || c == '\U{1680}'
    || '\U{2000}' <= c <= '\U{200A}'
    || c == '\U{2028}' || c == '\U{2029}' || c == '\U{202F}' || c == '\U{205F}' || c == '\U{3000}'
  }

  /** `str.isalpha` on one code point, exact for the code points below U+0250. */
  predicate IsAlpha(c: char)
  {
    || 'A' <= c <= 'Z' || 'a' <= c <= 'z'
    || c == '\U{AA}' || c == '\U{B5}' || c == '\U{BA}'
    || '\U{C0}' <= c <= '\U{D6}' || '\U{D8}' <= c <= '\U{F6}' || '\U{F8}' <= c <= '\U{24F}'
  }

  predicate AllSpace(s: string)
  {
    forall i :: 0 <= i < |s| ==> IsSpace(s[i])
  }

  /** `sub` occurs in `s` starting at position `i`. */
  predicate OccursAt(s: string, sub: string, i: nat)
  {
    i + |sub| <= |s| && s[i..i + |sub|] == sub
  }

  ghost predicate Occurs(s: string, sub: string)
  {
    exists i: nat :: OccursAt(s, sub, i)
  }

  lemma OccursChar(s: string, c: char)
    ensures Occurs(s, [c]) <==> c in s
  {
    if c in s {
      var i :| 0 <= i < |s| && s[i] == c;
      assert OccursAt(s, [c], i);
    }
    if Occurs(s, [c]) {
      var i: nat :| OccursAt(s, [c], i);
      assert s[i] == s[i..i + 1][0];
    }
  }

  /** An occurrence inside a prefix of `s` is an occurrence in `s`. */
  lemma OccursInPrefix(s: string, sub: string, k: nat, j: nat)
    requires k <= |s|
    requires OccursAt(s[..k], sub, j)
    ensures OccursAt(s, sub, j) && j + |sub| <= k
  {
    assert s[..k][j..j + |sub|] == s[j..j + |sub|];
  }

  /** `s.find(sub, i)`: the leftmost occurrence at or after `i`. */
  function FindFrom(s: string, sub: string, i: nat): (r: Option<nat>)
    ensures r.Some? ==> i <= r.value && OccursAt(s, sub, r.value)
    ensures forall j: nat :: i <= j && (r.None? || j < r.value) ==> !OccursAt(s, sub, j)
    decreases |s| - i
  {
    if i + |sub| > |s| then None
    else if s[i..i + |sub|] == sub then Some(i)
    else FindFrom(s, sub, i + 1)
  }

  /** `s.find(sub)`, with `None` for Python's -1. */
  function Find(s: string, sub: string): (r: Option<nat>)
    ensures r.None? <==> !Occurs(s, sub)
    ensures r.Some? ==> OccursAt(s, sub, r.value)
    ensures r.Some? ==> forall j: nat :: j < r.value ==> !OccursAt(s, sub, j)
  {
    FindFrom(s, sub, 0)
  }

  /** `s.split(sep)`: cut at the leftmost occurrence of `sep`, then go on after it. */
  function Split(s: string, sep: string): (r: seq<string>)
    requires sep != []
    ensures |r| >= 1
    decreases |s|
  {
    match Find(s, sep)
    case None => [s]
    case Some(k) => [s[..k]] + Split(s[k + |sep|..], sep)
  }

  /**
   A split has a single piece exactly when the separator does not occur, and
   no piece contains the separator.
   */
  lemma {:induction false} SplitPieces(s: string, sep: string)
    requires sep != []
    ensures |Split(s, sep)| == 1 <==> !Occurs(s, sep)
    ensures forall i :: 0 <= i < |Split(s, sep)| ==> !Occurs(Split(s, sep)[i], sep)
    decreases |s|
  {
    match Find(s, sep)
    case None =>
    case Some(k) =>
      var rest := s[k + |sep|..];
      SplitPieces(rest, sep);
      BeforeFind(s, sep, k);
      SplitStep(s, sep, k);
      var ps := Split(s, sep);
      assert ps[0] == s[..k];
      assert forall i :: 1 <= i < |ps| ==> ps[i] == Split(rest, sep)[i - 1];
  }

  /** What lies before the leftmost occurrence holds no occurrence. */
  lemma BeforeFind(s: string, sep: string, k: nat)
    requires sep != [] && Find(s, sep) == Some(k)
    ensures !Occurs(s[..k], sep)
  {
    forall j: nat | OccursAt(s[..k], sep, j) ensures false {
      OccursInPrefix(s, sep, k, j);
    }
  }

  /** `sep.join(ps)`. */
  function Join(ps: seq<string>, sep: string): string
  {
    if |ps| == 0 then [] else if |ps| == 1 then ps[0] else ps[0] + sep + Join(ps[1..], sep)
  }

  /** One step of `split`: the piece before the leftmost separator, then the split of the rest. */
  lemma SplitStep(s: string, sep: string, k: nat)
    requires sep != []
    requires Find(s, sep) == Some(k)
    ensures Split(s, sep) == [s[..k]] + Split(s[k + |sep|..], sep)
  {
  }

  lemma JoinCons(p: string, ps: seq<string>, sep: string)
    requires |ps| >= 1
    ensures Join([p] + ps, sep) == p + sep + Join(ps, sep)
  {
    assert ([p] + ps)[1..] == ps;
  }

  /** Joining the pieces of a split with the same separator gives the string back. */
  lemma {:induction false} SplitJoin(s: string, sep: string)
    requires sep != []
    ensures Join(Split(s, sep), sep) == s
    decreases |s|
  {
    var f := Find(s, sep);
    if f.Some? {
      var k := f.value;
      var rest := s[k + |sep|..];
      SplitJoin(rest, sep);
      assert OccursAt(s, sep, k);
      SplitStep(s, sep, k);
      JoinCons(s[..k], Split(rest, sep), sep);
      assert s == s[..k] + s[k..k + |sep|] + rest;
    }
  }

  /** The first piece of a split is everything before the first separator. */
  lemma SplitHead(s: string, sep: string)
    requires sep != []
    requires Occurs(s, sep)
    ensures s == Split(s, sep)[0] + sep + Join(Split(s, sep)[1..], sep)
  {
    var k := Find(s, sep).value;
    var rest := s[k + |sep|..];
    SplitJoin(rest, sep);
    SplitStep(s, sep, k);
    assert Split(s, sep)[1..] == Split(rest, sep);
    assert s == s[..k] + s[k..k + |sep|] + rest;
  }

  lemma FindCharAfter(a: string, c: char, b: string)
    requires c !in a
    ensures Find(a + [c] + b, [c]) == Some(|a|)
  {
    var s := a + [c] + b;
    assert OccursAt(s, [c], |a|);
    forall j: nat | j < |a| ensures !OccursAt(s, [c], j) {
      assert s[j] == a[j];
    }
  }

  /** For a one-character separator: what `find` skips holds no separator. */
  lemma FindChar(s: string, c: char)
    ensures Find(s, [c]).None? ==> c !in s
    ensures Find(s, [c]).Some? ==> Find(s, [c]).value < |s| && s[Find(s, [c]).value] == c && c !in s[..Find(s, [c]).value]
  {
    OccursChar(s, c);
    match Find(s, [c])
    case None =>
    case Some(k) =>
      assert s[k..k + 1][0] == s[k];
      forall j | 0 <= j < k ensures s[j] != c {
        assert !OccursAt(s, [c], j);
        assert s[j..j + 1] == [s[j]];
      }
  }

  /** `find` returns the first occurrence, so any first occurrence is what it returns. */
  lemma FindIs(s: string, sub: string, k: nat)
    requires OccursAt(s, sub, k)
    requires forall j: nat :: j < k ==> !OccursAt(s, sub, j)
    ensures Find(s, sub) == Some(k)
  {
  }

  /** A string without the first character of `sub` holds no occurrence of `sub`. */
  lemma AbsentHead(s: string, sub: string)
    requires sub != [] && sub[0] !in s
    ensures !Occurs(s, sub)
  {
    forall i: nat | i + |sub| <= |s| ensures !OccursAt(s, sub, i) {
      assert s[i..i + |sub|][0] == s[i];
    }
  }

  /** A string in which the separator's first character does not occur splits into itself alone. */
  lemma SplitAbsent(s: string, sep: string)
    requires sep != [] && sep[0] !in s
    ensures Split(s, sep) == [s]
  {
    AbsentHead(s, sep);
  }

  /**
   When the separator's first character does not occur in `a`, the first
   separator of `a + sep + b` is the one after `a`: the split yields `a`, then
   the split of `b`.
   */
  lemma SplitFirst(a: string, sep: string, b: string)
    requires sep != [] && sep[0] !in a
    ensures Split(a + sep + b, sep) == [a] + Split(b, sep)
  {
    var s := a + sep + b;
    assert s[|a|..|a| + |sep|] == sep;
    forall j: nat | j < |a| ensures !OccursAt(s, sep, j) {
      assert s[j] == a[j];
      if j + |sep| <= |s| {
        assert s[j..j + |sep|][0] == s[j];
      }
    }
    FindIs(s, sep, |a|);
    SplitStep(s, sep, |a|);
    assert s[..|a|] == a;
    assert s[|a| + |sep|..] == b;
  }

  /**
   For a one-character separator, splitting is the inverse of joining: any
   list of separator-free pieces is what splitting their join gives back.
   */
  lemma {:induction false} JoinSplit(ps: seq<string>, c: char)
    requires |ps| >= 1
    requires forall i :: 0 <= i < |ps| ==> c !in ps[i]
    ensures Split(Join(ps, [c]), [c]) == ps
  {
    if |ps| == 1 {
      OccursChar(ps[0], c);
    } else {
      var tail := Join(ps[1..], [c]);
      FindCharAfter(ps[0], c, tail);
      var s := ps[0] + [c] + tail;
      assert s[..|ps[0]|] == ps[0];
      assert s[|ps[0]| + 1..] == tail;
      JoinSplit(ps[1..], c);
    }
  }

  /** A one-character split has one more piece than there are separators. */
  lemma {:induction false} SplitCount(s: string, c: char)
    ensures |Split(s, [c])| == Count(s, c) + 1
    decreases |s|
  {
    match Find(s, [c])
    case None =>
      FindChar(s, c);
      CountZero(s, c);
    case Some(k) =>
      var rest := s[k + 1..];
      SplitCount(rest, c);
      FindChar(s, c);
      CountZero(s[..k], c);
      assert s[k..k + 1] == [c];
      assert s == s[..k] + [c] + rest;
      CountConcat(s[..k] + [c], rest, c);
      CountConcat(s[..k], [c], c);
      assert Count([c], c) == 1;
      assert Split(s, [c]) == [s[..k]] + Split(rest, [c]);
  }

  /**
   Joining non-empty pieces that are free of the one-character separator never
   puts the separator at either end or twice in a row.
   */
  lemma {:induction false} JoinSpacing(ts: seq<string>, c: char)
    requires forall i :: 0 <= i < |ts| ==> ts[i] != [] && c !in ts[i]
    ensures Join(ts, [c]) == [] <==> ts == []
    ensures Join(ts, [c]) != [] ==> Join(ts, [c])[0] != c && Join(ts, [c])[|Join(ts, [c])| - 1] != c
    ensures forall i :: 0 <= i < |Join(ts, [c])| - 1 ==> !(Join(ts, [c])[i] == c && Join(ts, [c])[i + 1] == c)
  {
    if |ts| >= 2 {
      var t := ts[0];
      var rest := Join(ts[1..], [c]);
      JoinSpacing(ts[1..], c);
      var r := t + [c] + rest;
      assert r == Join(ts, [c]);
      forall i | 0 <= i < |r| - 1 ensures !(r[i] == c && r[i + 1] == c) {
        if i < |t| {
          assert r[i] == t[i];
        } else if i == |t| {
          assert r[i + 1] == rest[0];
        } else {
          assert r[i] == rest[i - |t| - 1] && r[i + 1] == rest[i - |t|];
        }
      }
    }
  }

  /** `s.replace(target, repl)`: every non-overlapping occurrence, left to right, replaced. */
  function Replace(s: string, target: string, repl: string): (r: string)
    requires target != []
    ensures !Occurs(s, target) ==> r == s
  {
    SplitPieces(s, target);
    SplitJoin(s, target);
    Join(Split(s, target), repl)
  }

  /** Total length of a list of strings. */
  function TotalLength(ps: seq<string>): nat
  {
    if |ps| == 0 then 0 else |ps[0]| + TotalLength(ps[1..])
  }

  lemma {:induction false} JoinLength(ps: seq<string>, sep: string)
    requires |ps| >= 1
    ensures |Join(ps, sep)| == TotalLength(ps) + (|ps| - 1) * |sep|
  {
    if |ps| > 1 {
      JoinLength(ps[1..], sep);
    }
  }

  lemma LengthChange(whole: int, replaced: int, total: int, n: int, t: int, u: int)
    requires whole == total + n * t && replaced == total + n * u
    ensures replaced == whole + n * (u - t)
  {
    assert n * u == n * t + n * (u - t);
  }

  /** Joining the same pieces with another separator changes the length by the difference per separator. */
  lemma RejoinLength(ps: seq<string>, sep: string, sep': string)
    requires |ps| >= 1
    ensures |Join(ps, sep')| == |Join(ps, sep)| + (|ps| - 1) * (|sep'| - |sep|)
  {
    JoinLength(ps, sep);
    JoinLength(ps, sep');
    LengthChange(|Join(ps, sep)|, |Join(ps, sep')|, TotalLength(ps), |ps| - 1, |sep|, |sep'|);
  }

  /** The number of characters `replace` removes or adds: one `|repl| - |target|` per replaced occurrence. */
  lemma ReplaceLength(s: string, target: string, repl: string)
    requires target != []
    ensures |Replace(s, target, repl)| == |s| + (|Split(s, target)| - 1) * (|repl| - |target|)
  {
    SplitJoin(s, target);
    RejoinLength(Split(s, target), target, repl);
  }

  /** Deleting a single character with `replace(c, "")` keeps every other character in order. */
  lemma {:induction false} ReplaceCharDeletes(s: string, c: char)
    ensures Replace(s, [c], []) == Select(s, x => x != c)
    decreases |s|
  {
    match Find(s, [c])
    case None =>
      FindChar(s, c);
      SelectAll(s, x => x != c);
    case Some(k) =>
      var rest := s[k + 1..];
      ReplaceCharDeletes(rest, c);
      FindChar(s, c);
      SelectAll(s[..k], x => x != c);
      assert s[k..k + 1] == [c];
      assert s == s[..k] + [c] + rest;
      SelectConcat(s[..k] + [c], rest, x => x != c);
      SelectConcat(s[..k], [c], x => x != c);
      assert Split(s, [c])[1..] == Split(rest, [c]);
  }

  /** The first position at or after `i` that is not whitespace (or the end). */
  function SpaceEnd(s: string, i: nat): (k: nat)
    requires i <= |s|
    ensures i <= k <= |s|
    ensures forall j :: i <= j < k ==> IsSpace(s[j])
    ensures k == |s| || !IsSpace(s[k])
    decreases |s| - i
  {
    if i < |s| && IsSpace(s[i]) then SpaceEnd(s, i + 1) else i
  }

  /** The position after the last non-whitespace character before `n` (or 0). */
  function SpaceStart(s: string, n: nat): (k: nat)
    requires n <= |s|
    ensures k <= n
    ensures forall j :: k <= j < n ==> IsSpace(s[j])
    ensures k == 0 || !IsSpace(s[k - 1])
  {
    if n > 0 && IsSpace(s[n - 1]) then SpaceStart(s, n - 1) else n
  }

  /** `str.lstrip()`. */
  function LStrip(s: string): (r: string)
    ensures |r| <= |s| && r == s[|s| - |r|..]
    ensures AllSpace(s[..|s| - |r|])
    ensures r == [] || !IsSpace(r[0])
  {
    s[SpaceEnd(s, 0)..]
  }

  /** `str.rstrip()`. */
  function RStrip(s: string): (r: string)
    ensures |r| <= |s| && r == s[..|r|]
    ensures AllSpace(s[|r|..])
    ensures r == [] || !IsSpace(r[|r| - 1])
  {
    s[..SpaceStart(s, |s|)]
  }

  predicate IsStripped(s: string)
  {
    s == [] || (!IsSpace(s[0]) && !IsSpace(s[|s| - 1]))
  }

  lemma LStripCut(s: string)
    ensures s == s[..|s| - |LStrip(s)|] + LStrip(s)
  {
  }

  lemma RStripCut(s: string)
    ensures s == RStrip(s) + s[|RStrip(s)|..]
  {
  }

  lemma CutWitness(s: string, a: string, l: string, r: string, b: string)
    requires s == a + l && l == r + b && AllSpace(a) && AllSpace(b)
    ensures exists a', b' :: s == a' + r + b' && AllSpace(a') && AllSpace(b')
  {
    assert s == a + r + b;
  }

  /** What `strip` cuts off on either side is whitespace only. */
  lemma StripMargins(s: string)
    ensures exists a, b :: s == a + Strip(s) + b && AllSpace(a) && AllSpace(b)
  {
    var l := LStrip(s);
    LStripCut(s);
    RStripCut(l);
    CutWitness(s, s[..|s| - |l|], l, RStrip(l), l[|RStrip(l)|..]);
  }

  /**
   `str.strip()`: the result starts and ends with a non-space (StripMargins
   shows that only whitespace is cut off, StripUnique that nothing else is).
   */
  function Strip(s: string): (r: string)
    ensures IsStripped(r)
  {
    RStrip(LStrip(s))
  }

  /** Whitespace up to `m` and a non-space (or the end) at `m`: the leading run ends at `m`. */
  lemma {:induction false} SpaceEndAt(s: string, i: nat, m: nat)
    requires i <= m <= |s|
    requires forall j :: i <= j < m ==> IsSpace(s[j])
    requires m == |s| || !IsSpace(s[m])
    ensures SpaceEnd(s, i) == m
    decreases m - i
  {
    if i < m {
      SpaceEndAt(s, i + 1, m);
    }
  }

  /** Whitespace from `m` to `n` and a non-space (or the start) before `m`: the trailing run starts at `m`. */
  lemma {:induction false} SpaceStartAt(s: string, m: nat, n: nat)
    requires m <= n <= |s|
    requires forall j :: m <= j < n ==> IsSpace(s[j])
    requires m == 0 || !IsSpace(s[m - 1])
    ensures SpaceStart(s, n) == m
  {
    if m < n {
      SpaceStartAt(s, m, n - 1);
    }
  }

  lemma LStripSpaces(a: string, u: string)
    requires AllSpace(a)
    requires u == [] || !IsSpace(u[0])
    ensures LStrip(a + u) == u
  {
    var s := a + u;
    assert forall j :: 0 <= j < |a| ==> s[j] == a[j];
    if u != [] {
      assert s[|a|] == u[0];
    }
    SpaceEndAt(s, 0, |a|);
    assert s[|a|..] == u;
  }

  lemma RStripSpaces(u: string, b: string)
    requires AllSpace(b)
    requires u == [] || !IsSpace(u[|u| - 1])
    ensures RStrip(u + b) == u
  {
    var s := u + b;
    assert forall j :: |u| <= j < |s| ==> s[j] == b[j - |u|];
    if u != [] {
      assert s[|u| - 1] == u[|u| - 1];
    }
    SpaceStartAt(s, |u|, |s|);
    assert s[..|u|] == u;
  }

  /** Stripping is determined by its result: whitespace around a stripped string is all it removes. */
  lemma StripUnique(a: string, t: string, b: string)
    requires AllSpace(a) && AllSpace(b) && IsStripped(t)
    ensures Strip(a + t + b) == t
  {
    if t == [] {
      assert a + t + b == (a + b) + [];
      LStripSpaces(a + b, []);
    } else {
      assert a + t + b == a + (t + b);
      LStripSpaces(a, t + b);
      RStripSpaces(t, b);
    }
  }

  lemma StripStripped(t: string)
    requires IsStripped(t)
    ensures Strip(t) == t
  {
    assert [] + t + [] == t;
    StripUnique([], t, []);
  }

  lemma StripIdempotent(s: string)
    ensures Strip(Strip(s)) == Strip(s)
  {
    var t := Strip(s);
    assert [] + t + [] == t;
    StripUnique([], t, []);
  }

  /** The digit character for `d`. */
  function DigitChar(d: nat): (c: char)
    requires d < 10
    ensures '0' <= c <= '9'
  {
    (48 + d) as char
  }

  predicate IsDigits(s: string)
  {
    forall i :: 0 <= i < |s| ==> '0' <= s[i] <= '9'
  }

  /** `str(n)` for a non-negative integer: decimal digits without leading zeros. */
  function Decimal(n: nat): (r: string)
    ensures |r| >= 1 && IsDigits(r)
    ensures r[0] == '0' ==> n == 0
    decreases n
  {
    if n < 10 then [DigitChar(n)] else Decimal(n / 10) + [DigitChar(n % 10)]
  }

  /** `int(s)` for a string of decimal digits. */
  function DecimalValue(s: string): nat
    requires IsDigits(s)
  {
    if s == [] then 0 else DecimalValue(s[..|s| - 1]) * 10 + (s[|s| - 1] as int - 48)
  }

  lemma {:induction false} DecimalRoundTrip(n: nat)
    ensures DecimalValue(Decimal(n)) == n
    decreases n
  {
    if n >= 10 {
      DecimalRoundTrip(n / 10);
      var r := Decimal(n);
      assert r[..|r| - 1] == Decimal(n / 10);
    }
  }

  lemma DecimalInjective(a: nat, b: nat)
    requires Decimal(a) == Decimal(b)
    ensures a == b
  {
    DecimalRoundTrip(a);
    DecimalRoundTrip(b);
  }
}

=== FILE: results.dfy ===
/**
 The result pages: `parseResult` turns one table row into a result record or
 `None`, `getEvent` does so for every row of an event's page, and
 `generateResultCSV` puts the rows of all events together and drops the `None`s.

 The markup queries are inputs: each `find` is an optional cell (its text, or
 its children for the name link and the car cell).
 */
module Results {
  import opened PyResult
  import opened Seqs
  import opened PyStr
  import opened Cleanup
  import opened Variants
  import opened Events

  /** What `parseResult` reads from a table row. */
  datatype RawResultRow = RawResultRow(
    entryLink: Option<seq<Node>>,  // children of the link in the `final-entry` cell
    numberCell: Option<string>,    // text of the `final-results-number` cell
    finishCell: Option<string>,    // text of the `font-weight-bold text-left` cell
    carCell: Option<seq<Node>>,    // children of the `final-results-car` cell
    timesCell: Option<string>      // text of the `final-results-times` cell
  )

  /** The dictionary `parseResult` returns; `entryNumber` is `None` in the copies without that key. */
  datatype ResultRecord = ResultRecord(
    season: int, round: int, eventName: string, url: string, conditions: seq<string>,
    entryNumber: Option<string>,
    driver: string, codriver: string, finish: string, car: string, time: string)

  /** The cell `parseResult` reads the entry number from is needed only by the copy that records it. */
  predicate HasEntryNumber(v: Variant, row: RawResultRow)
  {
    v.emitsEntryNumber ==> row.numberCell.Some?
  }

  /**
   A row from which `parseResult` raises nothing: the name link has two text
   children besides `<span>`s and bare newlines, the other cells are there,
   the car cell's first non-empty child is text and the times cell has a
   token that is not blank.
   */
  ghost predicate Parsable(v: Variant, row: RawResultRow)
  {
    && row.entryLink.Some?
    && |NameParts(row.entryLink.value)| >= 2
    && NameParts(row.entryLink.value)[0].Str? && NameParts(row.entryLink.value)[1].Str?
    && HasEntryNumber(v, row)
    && row.finishCell.Some?
    && row.carCell.Some? && (exists k: nat :: FirstTruthyAt(row.carCell.value, k) && row.carCell.value[k].Str?)
    && row.timesCell.Some?
    && exists i :: 0 <= i < |Split(row.timesCell.value, " ")| && !IsBlankToken(Split(row.timesCell.value, " ")[i])
  }

  /** The body of `parseResult`'s `try`: the first lookup that fails raises. */
  function ParseResultRaising(v: Variant, row: RawResultRow, season: int, round: int, eventName: string,
                              url: string, conditions: seq<string>): (r: Result<ResultRecord>)
    ensures r.Success? <==> Parsable(v, row)
  {
    var children :- Present(row.entryLink);
    var parts := NameParts(children);
    var entryNumber :- if v.emitsEntryNumber then
                         var cell :- Present(row.numberCell); Success(Some(EntryNumber(cell)))
                       else Success(None);
    var driver :- NameAt(parts, 0);
    var codriver :- NameAt(parts, 1);
    var finishCell :- Present(row.finishCell);
    var carCell :- Present(row.carCell);
    var car :- CarText(carCell);
    var timesCell :- Present(row.timesCell);
    var time :- FirstToken(timesCell);
    Success(ResultRecord(season, round, eventName, url, conditions, entryNumber,
                         driver, codriver, Finish(finishCell), car, time))
  }

  /**
   `parseResult`: the record, or `None` when anything in the row is missing.
   The event's keys are copied; every field is cleaned.
   */
  function ParseResult(v: Variant, row: RawResultRow, season: int, round: int, eventName: string,
                       url: string, conditions: seq<string>): (r: Option<ResultRecord>)
    ensures r.Some? <==> Parsable(v, row)
    ensures r.Some? ==> && r.value.season == season && r.value.round == round && r.value.eventName == eventName
                        && r.value.url == url && r.value.conditions == conditions
    ensures r.Some? ==> (r.value.entryNumber.Some? <==> v.emitsEntryNumber)
    ensures r.Some? && v.emitsEntryNumber ==> r.value.entryNumber == Some(EntryNumber(row.numberCell.value))
    ensures r.Some? ==> && r.value.driver == Collapse(NameParts(row.entryLink.value)[0].text)
                        && r.value.codriver == Collapse(NameParts(row.entryLink.value)[1].text)
                        && WellSpaced(r.value.driver) && WellSpaced(r.value.codriver)
    ensures r.Some? ==> r.value.finish == Finish(row.finishCell.value) && '.' !in r.value.finish && IsStripped(r.value.finish)
    ensures r.Some? ==> r.value.car == CarText(row.carCell.value).value && IsStripped(r.value.car)
    ensures r.Some? ==> r.value.time == FirstToken(row.timesCell.value).value && ' ' !in r.value.time
  {
    match ParseResultRaising(v, row, season, round, eventName, url, conditions)
    case Success(record) => Some(record)
    case Failure(_) => None
  }

  /** `getEvent`: one entry per row of the event's page, in page order, each tagged with the event's keys. */
  function GetEvent(v: Variant, event: Event, rows: seq<RawResultRow>): (r: seq<Option<ResultRecord>>)
    ensures |r| == |rows|
    ensures forall i :: 0 <= i < |rows| ==>
      r[i] == ParseResult(v, rows[i], event.season, event.round, event.name, event.url, event.conditions)
    ensures forall i :: 0 <= i < |rows| ==> (r[i].Some? <==> Parsable(v, rows[i]))
    ensures forall i :: 0 <= i < |rows| && r[i].Some? ==>
      && r[i].value.season == event.season && r[i].value.round == event.round && r[i].value.url == event.url
      && r[i].value.eventName == event.name && r[i].value.conditions == event.conditions
  {
    seq(|rows|, i requires 0 <= i < |rows| =>
      ParseResult(v, rows[i], event.season, event.round, event.name, event.url, event.conditions))
  }

  /**
   `generateResultCSV`: the rows of every event, event after event, with the
   `None`s dropped. `pages[e]` is the result page of `events[e]`.
   */
  function GenerateResults(v: Variant, events: seq<Event>, pages: seq<seq<RawResultRow>>): (r: seq<ResultRecord>)
    requires |pages| == |events|
    ensures |r| + Count(AllRows(v, events, pages), None) == |AllRows(v, events, pages)|
    ensures forall k :: 0 <= k < |r| ==> Some(r[k]) in AllRows(v, events, pages)
  {
    KeepSomeSize(AllRows(v, events, pages));
    KeepSome(AllRows(v, events, pages))
  }

  /** The list `generateResultCSV` builds with `extend` before the filter. */
  function AllRows(v: Variant, events: seq<Event>, pages: seq<seq<RawResultRow>>): seq<Option<ResultRecord>>
    requires |pages| == |events|
  {
    Flatten(seq(|events|, e requires 0 <= e < |events| => GetEvent(v, events[e], pages[e])))
  }

  /**
   The filter keeps exactly the records, in their order: the k-th result is
   the k-th non-`None` row, and the number of results is the number of rows
   less the `None`s.
   */
  lemma GenerateResultsKeeps(v: Variant, events: seq<Event>, pages: seq<seq<RawResultRow>>)
    requires |pages| == |events|
    ensures var rows := AllRows(v, events, pages);
      && |GenerateResults(v, events, pages)| + Count(rows, None) == |rows|
      && |GenerateResults(v, events, pages)| == |SomePositions(rows)|
      && forall k :: 0 <= k < |GenerateResults(v, events, pages)| ==>
           GenerateResults(v, events, pages)[k] == rows[SomePositions(rows)[k]].value
  {
    KeepSomeSize(AllRows(v, events, pages));
    KeepSomeOrder(AllRows(v, events, pages));
  }

  /** Filtering the whole list is filtering each event's rows and putting them together in event order. */
  lemma GenerateResultsByEvent(v: Variant, events: seq<Event>, pages: seq<seq<RawResultRow>>)
    requires |pages| == |events|
    ensures GenerateResults(v, events, pages)
         == Flatten(seq(|events|, e requires 0 <= e < |events| => KeepSome(GetEvent(v, events[e], pages[e]))))
  {
    var perEvent := seq(|events|, e requires 0 <= e < |events| => GetEvent(v, events[e], pages[e]));
    KeepSomeFlatten(perEvent);
    assert seq(|perEvent|, i requires 0 <= i < |perEvent| => KeepSome(perEvent[i]))
        == seq(|events|, e requires 0 <= e < |events| => KeepSome(GetEvent(v, events[e], pages[e])));
  }

  /** Every record of `getEvent` carries the keys of its event. */
  lemma KeptRowsCarryEvent(v: Variant, event: Event, rows: seq<RawResultRow>)
    ensures forall k :: 0 <= k < |KeepSome(GetEvent(v, event, rows))| ==>
      var record := KeepSome(GetEvent(v, event, rows))[k];
      && record.season == event.season && record.round == event.round && record.url == event.url
      && record.eventName == event.name && record.conditions == event.conditions
  {
    var parsed := GetEvent(v, event, rows);
    KeepSomeOrder(parsed);
  }

  /**
   The copies differ only in the entry number: a row that core/Helper.py
   parses, index.py and Helper.py parse to the same record without it.
   */
  lemma EntryNumberOnlyDifference(row: RawResultRow, season: int, round: int, eventName: string,
                                  url: string, conditions: seq<string>)
    requires ParseResult(CoreHelper, row, season, round, eventName, url, conditions).Some?
    ensures ParseResult(RootIndex, row, season, round, eventName, url, conditions)
         == Some(ParseResult(CoreHelper, row, season, round, eventName, url, conditions).value.(entryNumber := None))
    ensures ParseResult(RootHelper, row, season, round, eventName, url, conditions)
         == ParseResult(RootIndex, row, season, round, eventName, url, conditions)
  {
  }

  /** The copies without the entry number never read the number cell; core/Helper.py drops a row without one. */
  lemma NumberCellIgnored(v: Variant, row: RawResultRow, cell: Option<string>, season: int, round: int,
                          eventName: string, url: string, conditions: seq<string>)
    ensures !v.emitsEntryNumber ==>
      ParseResult(v, row.(numberCell := cell), season, round, eventName, url, conditions)
         == ParseResult(v, row, season, round, eventName, url, conditions)
    ensures row.numberCell.None? ==> ParseResult(CoreHelper, row, season, round, eventName, url, conditions).None?
  {
  }
}

=== FILE: seqs.dfy ===
/**
 Python list idioms the scraper is built from: counting, comprehension
 filters, `extend` in a loop, dropping `None`s, and a comprehension over
 `enumerate` whose element function may raise.
 */
module Seqs {
  import opened PyResult

  /** Number of occurrences of `x` in `xs` (Python's `xs.count(x)`). */
  function Count<T(==)>(xs: seq<T>, x: T): nat
  {
    if |xs| == 0 then 0 else (if xs[0] == x then 1 else 0) + Count(xs[1..], x)
  }

  lemma {:induction false} CountConcat<T>(a: seq<T>, b: seq<T>, x: T)
    ensures Count(a + b, x) == Count(a, x) + Count(b, x)
  {
    if |a| == 0 {
      assert a + b == b;
    } else {
      assert (a + b)[1..] == a[1..] + b;
      CountConcat(a[1..], b, x);
    }
  }

  lemma {:induction false} CountZero<T>(xs: seq<T>, x: T)
    ensures Count(xs, x) == 0 <==> x !in xs
  {
    if |xs| > 0 {
      CountZero(xs[1..], x);
      assert xs == [xs[0]] + xs[1..];
    }
  }

  /** The comprehension `[e for e in xs if keep(e)]`. */
  function Select<T(==)>(xs: seq<T>, keep: T -> bool): (r: seq<T>)
    ensures |r| <= |xs|
  {
    if |xs| == 0 then [] else (if keep(xs[0]) then [xs[0]] else []) + Select(xs[1..], keep)
  }

  /** Everything a comprehension filter keeps is accepted and comes from the input. */
  lemma {:induction false} SelectElements<T>(xs: seq<T>, keep: T -> bool)
    ensures forall i :: 0 <= i < |Select(xs, keep)| ==> keep(Select(xs, keep)[i]) && Select(xs, keep)[i] in xs
  {
    if |xs| > 0 {
      SelectElements(xs[1..], keep);
      var head := if keep(xs[0]) then [xs[0]] else [];
      var tail := Select(xs[1..], keep);
      forall i | 0 <= i < |head + tail| ensures keep((head + tail)[i]) && (head + tail)[i] in xs {
        if i >= |head| {
          assert (head + tail)[i] == tail[i - |head|];
          assert tail[i - |head|] in xs[1..];
        }
      }
    }
  }

  /** A comprehension filter keeps exactly the elements it accepts, each as often as it occurs. */
  lemma {:induction false} SelectCount<T>(xs: seq<T>, keep: T -> bool, x: T)
    ensures Count(Select(xs, keep), x) == if keep(x) then Count(xs, x) else 0
  {
    if |xs| > 0 {
      SelectCount(xs[1..], keep, x);
      var head := if keep(xs[0]) then [xs[0]] else [];
      CountConcat(head, Select(xs[1..], keep), x);
    }
  }

  /** Filtering commutes with concatenation, so the order of the kept elements is the input order. */
  lemma {:induction false} SelectConcat<T>(a: seq<T>, b: seq<T>, keep: T -> bool)
    ensures Select(a + b, keep) == Select(a, keep) + Select(b, keep)
  {
    if |a| == 0 {
      assert a + b == b;
    } else {
      assert (a + b)[1..] == a[1..] + b;
      SelectConcat(a[1..], b, keep);
      var head := if keep(a[0]) then [a[0]] else [];
      assert Select(a + b, keep) == head + Select(a[1..] + b, keep);
      assert Select(a, keep) == head + Select(a[1..], keep);
    }
  }

  lemma {:induction false} SelectAll<T>(xs: seq<T>, keep: T -> bool)
    requires forall i :: 0 <= i < |xs| ==> keep(xs[i])
    ensures Select(xs, keep) == xs
  {
    if |xs| > 0 {
      SelectAll(xs[1..], keep);
    }
  }

  /** The first element `Select` keeps is the first accepted element of the input. */
  lemma {:induction false} SelectHead<T>(xs: seq<T>, keep: T -> bool) returns (k: nat)
    requires Select(xs, keep) != []
    ensures k < |xs| && keep(xs[k]) && Select(xs, keep)[0] == xs[k]
    ensures forall j :: 0 <= j < k ==> !keep(xs[j])
  {
    if keep(xs[0]) {
      k := 0;
    } else {
      assert Select(xs, keep) == Select(xs[1..], keep);
      var k' := SelectHead(xs[1..], keep);
      k := k' + 1;
    }
  }

  /** `Select` is empty exactly when no element is accepted. */
  lemma {:induction false} SelectEmpty<T>(xs: seq<T>, keep: T -> bool)
    ensures Select(xs, keep) == [] <==> forall i :: 0 <= i < |xs| ==> !keep(xs[i])
  {
    if |xs| > 0 {
      SelectEmpty(xs[1..], keep);
      assert forall i :: 1 <= i < |xs| ==> xs[i] == xs[1..][i - 1];
    }
  }

  /** `extend` in a loop: the lists concatenated in order. */
  function Flatten<T>(xss: seq<seq<T>>): (r: seq<T>)
  {
    if |xss| == 0 then [] else xss[0] + Flatten(xss[1..])
  }

  lemma {:induction false} FlattenConcat<T>(a: seq<seq<T>>, b: seq<seq<T>>)
    ensures Flatten(a + b) == Flatten(a) + Flatten(b)
  {
    if |a| == 0 {
      assert a + b == b;
    } else {
      assert (a + b)[1..] == a[1..] + b;
      FlattenConcat(a[1..], b);
    }
  }

  /** The comprehension `[i for i in xs if i is not None]`. */
  function KeepSome<T>(xs: seq<Option<T>>): (r: seq<T>)
    ensures |r| <= |xs|
    ensures forall k :: 0 <= k < |r| ==> Some(r[k]) in xs
  {
    if |xs| == 0 then []
    else KeepSome(xs[..|xs| - 1]) + (match xs[|xs| - 1] case Some(y) => [y] case None => [])
  }

  /** The positions of the non-`None` entries of `xs`, in increasing order. */
  function SomePositions<T>(xs: seq<Option<T>>): (r: seq<nat>)
    ensures forall k :: 0 <= k < |r| ==> r[k] < |xs| && xs[r[k]].Some?
    ensures forall k, l :: 0 <= k < l < |r| ==> r[k] < r[l]
    ensures forall i :: 0 <= i < |xs| && xs[i].Some? ==> i in r
  {
    if |xs| == 0 then []
    else
      var init := SomePositions(xs[..|xs| - 1]);
      init + (if xs[|xs| - 1].Some? then [|xs| - 1] else [])
  }

  /**
   Dropping the `None`s keeps the other entries, in their order: the k-th
   survivor is the entry at the k-th non-`None` position.
   */
  lemma {:induction false} KeepSomeOrder<T>(xs: seq<Option<T>>)
    ensures |KeepSome(xs)| == |SomePositions(xs)|
    ensures forall k :: 0 <= k < |KeepSome(xs)| ==> KeepSome(xs)[k] == xs[SomePositions(xs)[k]].value
  {
    if |xs| > 0 {
      var init := xs[..|xs| - 1];
      KeepSomeOrder(init);
      assert forall i :: 0 <= i < |init| ==> init[i] == xs[i];
    }
  }

  /** Exactly the `None` entries are dropped. */
  lemma {:induction false} KeepSomeSize<T>(xs: seq<Option<T>>)
    ensures |KeepSome(xs)| + Count(xs, None) == |xs|
  {
    if |xs| > 0 {
      var init := xs[..|xs| - 1];
      KeepSomeSize(init);
      assert xs == init + [xs[|xs| - 1]];
      CountConcat(init, [xs[|xs| - 1]], None);
    }
  }

  lemma {:induction false} KeepSomeConcat<T>(a: seq<Option<T>>, b: seq<Option<T>>)
    ensures KeepSome(a + b) == KeepSome(a) + KeepSome(b)
  {
    if |b| == 0 {
      assert a + b == a;
    } else {
      assert (a + b)[..|a + b| - 1] == a + b[..|b| - 1];
      KeepSomeConcat(a, b[..|b| - 1]);
    }
  }

  /** Filtering the whole list equals filtering each part and concatenating. */
  lemma {:induction false} KeepSomeFlatten<T>(xss: seq<seq<Option<T>>>)
    ensures KeepSome(Flatten(xss)) == Flatten(seq(|xss|, i requires 0 <= i < |xss| => KeepSome(xss[i])))
  {
    if |xss| > 0 {
      KeepSomeConcat(xss[0], Flatten(xss[1..]));
      KeepSomeFlatten(xss[1..]);
      var parts := seq(|xss|, i requires 0 <= i < |xss| => KeepSome(xss[i]));
      assert parts[1..] == seq(|xss[1..]|, i requires 0 <= i < |xss[1..]| => KeepSome(xss[1..][i]));
    }
  }

  /** Every value of `ys` as a present value: a list in which no entry is `None`. */
  function AllSome<T>(ys: seq<T>): (r: seq<Option<T>>)
    ensures |r| == |ys| && forall i :: 0 <= i < |ys| ==> r[i] == Some(ys[i])
  {
    seq(|ys|, i requires 0 <= i < |ys| => Some(ys[i]))
  }

  /** `KeepSome` of a list with no `None` is the list of values: the filter is then a no-op. */
  lemma {:induction false} KeepSomeAllPresent<T>(ys: seq<T>)
    ensures KeepSome(AllSome(ys)) == ys
  {
    if |ys| > 0 {
      var init := ys[..|ys| - 1];
      KeepSomeAllPresent(init);
      assert AllSome(ys)[..|ys| - 1] == AllSome(init);
      assert ys == init + [ys[|ys| - 1]];
    }
  }

  /**
   A comprehension over `enumerate(xs)` whose element expression may raise:
   the elements are produced in order and the first exception aborts the whole list.
   */
  function MapIndexed<A, B>(f: (nat, A) -> Result<B>, xs: seq<A>): (r: Result<seq<B>>)
    ensures r.Success? <==> forall i :: 0 <= i < |xs| ==> f(i, xs[i]).Success?
    ensures r.Success? ==> |r.value| == |xs|
    ensures r.Success? ==> forall i :: 0 <= i < |xs| ==> r.value[i] == f(i, xs[i]).value
    ensures r.Failure? ==>
      exists i :: 0 <= i < |xs| && f(i, xs[i]) == Failure(r.error)
                  && forall j :: 0 <= j < i ==> f(j, xs[j]).Success?
  {
    if |xs| == 0 then Success([])
    else
      var init :- MapIndexed(f, xs[..|xs| - 1]);
      var last :- f(|xs| - 1, xs[|xs| - 1]);
      Success(init + [last])
  }
}

=== FILE: variants.dfy ===
/**
 The repository carries three copies of the event and result scrapers: the
 `Helper` class in core/Helper.py, an older `Helper` class in Helper.py and the
 module-level functions of index.py. They differ in two places only, and the
 model is written once, parameterised by those two.
 */
module Variants {

  datatype Variant = Variant(
    bullet: string,         // the separator `parseEvent` splits the event detail text on
    emitsEntryNumber: bool  // whether `parseResult` records `entry_number`
  )

  /** U+2022 BULLET, as the event listing shows it between its details. */
  const Bullet: string := "\U{2022}"

  /** The UTF-8 bytes E2 80 A2 of U+2022 read back as Windows-1252 text. */
  const MojibakeBullet: string := "\U{E2}\U{20AC}\U{A2}"

  /** core/Helper.py: splits on the bullet and records the entry number. */
  const CoreHelper: Variant := Variant(Bullet, true)

  /** Helper.py: splits on the mis-decoded bullet and has no entry number. */
  const RootHelper: Variant := Variant(MojibakeBullet, false)

  /** index.py: splits on the bullet and has no entry number. */
  const RootIndex: Variant := Variant(Bullet, false)
}

=== FILE: worked_cases.dfy ===
/**
 The condition cleanup on the usual shape of an event detail text,
 `<lead> • <distance> km - <word> - <word>`: first in general, over the parts,
 then on one concrete text.
 */
module WorkedCases {
  import opened PyResult
  import opened Seqs
  import opened PyStr
  import opened Cleanup
  import opened Variants

  const Dash: string := " - "

  /** The parts a detail text is built from: only the distance holds digits. */
  predicate DetailParts(lead: string, distance: string, first: string, second: string)
  {
    && '\U{2022}' !in lead && '\U{2022}' !in distance
    && 'k' !in distance && 'k' !in first && 'k' !in second
    && (forall i :: 0 <= i < |distance| ==> !IsTagChar(distance[i]))
    && (forall i :: 0 <= i < |first| ==> IsAlpha(first[i]))
    && (forall i :: 0 <= i < |second| ==> IsAlpha(second[i]))
  }

  function DetailText(lead: string, distance: string, first: string, second: string): string
  {
    lead + Bullet + distance + "km" + Dash + first + Dash + second
  }

  /** A word of letters holds no character that is not a letter. */
  lemma LettersAvoid(w: string, c: char)
    requires forall i :: 0 <= i < |w| ==> IsAlpha(w[i])
    requires !IsAlpha(c)
    ensures c !in w
  {
    assert forall i :: 0 <= i < |w| ==> w[i] != c;
  }

  lemma KeepHead(x: char, xs: string)
    requires IsTagChar(x)
    ensures Select([x] + xs, KeepTagChar) == [x] + Select(xs, KeepTagChar)
  {
    assert ([x] + xs)[1..] == xs;
  }

  lemma DropHead(x: char, xs: string)
    requires !IsTagChar(x)
    ensures Select([x] + xs, KeepTagChar) == Select(xs, KeepTagChar)
  {
    assert ([x] + xs)[1..] == xs;
  }

  /** The letter filter turns the ` - ` between two details into a bare `-`. */
  lemma FilterDash()
    ensures Select(Dash, KeepTagChar) == "-"
  {
    assert Dash == [' '] + (['-'] + [' ']);
    DropHead(' ', ['-'] + [' ']);
    KeepHead('-', [' ']);
    DropHead(' ', []);
  }

  /** The segment after the bullet is the distance, `km` and the words. */
  lemma DetailSegment(lead: string, distance: string, first: string, second: string)
    requires DetailParts(lead, distance, first, second)
    ensures Split(DetailText(lead, distance, first, second), Bullet)
         == [lead, distance + "km" + Dash + first + Dash + second]
  {
    var segment := distance + "km" + Dash + first + Dash + second;
    LettersAvoid(first, '\U{2022}');
    LettersAvoid(second, '\U{2022}');
    assert DetailText(lead, distance, first, second) == lead + Bullet + segment;
    SplitFirst(lead, Bullet, segment);
    SplitAbsent(segment, Bullet);
  }

  /** Only the one `km` goes; the distance digits go later, in the letter filter. */
  lemma SegmentDropKm(distance: string, after: string)
    requires 'k' !in distance && 'k' !in after
    ensures Replace(distance + "km" + after, "km", "") == distance + after
  {
    SplitFirst(distance, "km", after);
    SplitAbsent(after, "km");
    assert [distance, after][1..] == [after];
    assert Join([distance, after], "") == distance + "" + after;
  }

  lemma SelectFive(a: string, b: string, c: string, d: string, e: string)
    ensures Select(a + b + c + d + e, KeepTagChar)
         == Select(a, KeepTagChar) + Select(b, KeepTagChar) + Select(c, KeepTagChar) + Select(d, KeepTagChar) + Select(e, KeepTagChar)
  {
    SelectConcat(a, b, KeepTagChar);
    SelectConcat(a + b, c, KeepTagChar);
    SelectConcat(a + b + c, d, KeepTagChar);
    SelectConcat(a + b + c + d, e, KeepTagChar);
  }

  lemma FilterParts(distance: string, dash: string, first: string, second: string)
    requires Select(distance, KeepTagChar) == [] && Select(dash, KeepTagChar) == "-"
    requires Select(first, KeepTagChar) == first && Select(second, KeepTagChar) == second
    ensures Select(distance + dash + first + dash + second, KeepTagChar) == "-" + first + "-" + second
  {
    SelectFive(distance, dash, first, dash, second);
  }

  lemma FilterWord(w: string)
    requires forall i :: 0 <= i < |w| ==> IsAlpha(w[i])
    ensures Select(w, KeepTagChar) == w
  {
    SelectAll(w, KeepTagChar);
  }

  lemma FilterNone(w: string)
    requires forall i :: 0 <= i < |w| ==> !IsTagChar(w[i])
    ensures Select(w, KeepTagChar) == []
  {
    SelectEmpty(w, KeepTagChar);
  }

  /** The letter filter drops the distance and keeps each `-` and every letter of the words. */
  lemma SegmentFilter(distance: string, first: string, second: string)
    requires forall i :: 0 <= i < |distance| ==> !IsTagChar(distance[i])
    requires forall i :: 0 <= i < |first| ==> IsAlpha(first[i])
    requires forall i :: 0 <= i < |second| ==> IsAlpha(second[i])
    ensures Select(distance + Dash + first + Dash + second, KeepTagChar) == "-" + first + "-" + second
  {
    FilterNone(distance);
    FilterDash();
    FilterWord(first);
    FilterWord(second);
    FilterParts(distance, Dash, first, second);
  }

  /** The filtered text starts with `-`, so the first tag is empty. */
  lemma FilteredSplit(first: string, second: string)
    requires '-' !in first && '-' !in second
    ensures Split("-" + first + "-" + second, "-") == ["", first, second]
  {
    assert "-" + first + "-" + second == [] + "-" + (first + "-" + second);
    SplitFirst([], "-", first + "-" + second);
    SplitFirst(first, "-", second);
    SplitAbsent(second, "-");
  }

  /**
   For a detail text of the usual shape, the conditions are an empty tag and
   then the two words, unchanged: nothing removes a word such as `cancelled`.
   */
  lemma ConditionsOfDetail(lead: string, distance: string, first: string, second: string)
    requires DetailParts(lead, distance, first, second)
    ensures Conditions(DetailText(lead, distance, first, second), Bullet) == Success(["", first, second])
  {
    DetailSegment(lead, distance, first, second);
    var after := Dash + first + Dash + second;
    assert distance + "km" + Dash + first + Dash + second == distance + "km" + after;
    SegmentDropKm(distance, after);
    assert distance + after == distance + Dash + first + Dash + second;
    SegmentFilter(distance, first, second);
    LettersAvoid(first, '-');
    LettersAvoid(second, '-');
    FilteredSplit(first, second);
  }

  /** The same text split on the mis-decoded bullet has no second piece. */
  lemma MojibakeFails(lead: string, distance: string, first: string, second: string)
    requires '\U{E2}' !in DetailText(lead, distance, first, second)
    ensures Conditions(DetailText(lead, distance, first, second), MojibakeBullet) == Failure(IndexError)
  {
    AbsentHead(DetailText(lead, distance, first, second), MojibakeBullet);
  }

  /** ` • 320.5 km - gravel - cancelled` gives the conditions `""`, `gravel`, `cancelled`. */
  lemma ConditionsExample()
    ensures Conditions(DetailText(" ", " 320.5 ", "gravel", "cancelled"), Bullet)
         == Success(["", "gravel", "cancelled"])
  {
    var distance := " 320.5 ";
    forall i | 0 <= i < |distance| ensures !IsTagChar(distance[i]) {
      assert distance[i] in " 0123456789.";
    }
    ConditionsOfDetail(" ", distance, "gravel", "cancelled");
  }
}
